=== FILE: README.md ===
# devserver-mcp process supervisor in Dafny

This project models the core of `server.mjs`, an MCP server that starts,
watches and stops local development servers under labels. The model covers:

- the registry of running processes (`procs`) and its insertion order;
- the alias map and one-step name resolution;
- the command allow-list;
- the port scan, the per-process log ring buffer and the `logs` query;
- the health checker and its one-shot first probe;
- the auto-restart, forced-kill and restart timers;
- the group commands `groupStop`, `down` and `up`;
- `startService`, `formatUptime`, `ansiToHtml` and `checkAuth`.

Every command and event is a pure step function on an immutable `State`.
Whatever comes from outside is a parameter: the time, the exit code and
signal, an output chunk, a probe's outcome, whether a port is free, and the
regular-expression engine.

Modules, in dependency order:

- `Wrappers`: `Option` and `Result`.
- `Strings`: the JavaScript string operations used (`\s`, `trim`, `split('\n')`, `includes`, `String(n)`).
- `AllowList`: the seven start-anchored patterns, a greedy matcher, and a proof that it agrees with the existential reading of the regular expressions.
- `PortScan`: `findAvailablePort` over an availability oracle.
- `Uptime`: `formatUptime`.
- `Auth`: `checkAuth`.
- `Ansi`: `ansiToHtml` as a left-to-right scanner over SGR sequences (ECMA-48 section 8.3.117).
- `LogStore`: log records, `captureOutput`'s ring buffer, and the `logs` slice and `grep`.
- `Health`: the update a probe result makes to an entry.
- `Registry`: entries, launches, alias resolution and project labels.
- `Supervisor`: the state, `start`/`stop`/`restart`, and the output, error, exit, timer, interval and probe events.
- `Lifecycle`: the transition system and the registry invariant every step keeps.
- `Commands`: `logs`, `status`, `groupStop` and `down`.
- `Services`: `startService` as written, the corrected version, and `up`.
- `Hazards`: event sequences the handlers do not guard against.

Three behaviours of the code that a reader of the tool descriptions might not expect:

- `groupStop` (server.mjs:511-524) calls `stop` on each entry of the project. `stop` turns auto-restart off and schedules a forced kill five seconds later (server.mjs:778-787). With `stop` taken as one atomic step (see "## Left out"), every entry is therefore still registered when `groupStop` returns (`Commands.GroupStop`, `Commands.GroupStopDisarms`). In the program this holds only when no selected entry's command contains `convex`: for such an entry `stop` awaits `pkill` (server.mjs:752-761), and while it waits the exit handlers of entries already sent SIGTERM can delete them (server.mjs:686).
- The relaunch timer of the exit handler (server.mjs:679-684) checks only that the label is still in `procs`. A label stopped during the three-second delay is still there, so it is relaunched with auto-restart on (`Hazards.StopDuringRelaunchDelay`).
- `startProcess` probes `ports.main`, or port 3000 when there is none, whenever the main port is truthy or a `healthEndpoint` is given (server.mjs:702-704); the endpoint's value is never used, and every probe asks for `/health` (server.mjs:142) (`Supervisor.ProbedExactlyWhenMonitored`).

## Model

| member | source | states |
|---|---|---|
| Strings.Split | server.mjs:626 | `split('\n')` yields at least one piece and no piece contains a line break |
| Strings.JoinSplit | server.mjs:626 | splitting a chunk on line breaks loses no text: joining the pieces gives the chunk back |
| Strings.SplitJoin | server.mjs:626 | the pieces are exactly the maximal break-free runs: splitting a join of break-free pieces returns those pieces |
| Strings.NatToString | server.mjs:157 | the rendering of a status code is a digit string whose decimal value is the number, with no leading zero except for 0 itself |
| Strings.Skip | server.mjs:31-39 | a `\s+`, `\w+` or `\d+` run ends at the first character outside the class |
| AllowList.ScanIsMatch | server.mjs:31-39 | for every allow-list pattern the greedy matcher succeeds exactly when some reading of the regular expression matches at the start |
| AllowList.AllowedIsMatch | server.mjs:90-92 | `IsCommandAllowed` holds exactly when one of the seven patterns matches at the start of the command |
| AllowList.AllowedExtends | server.mjs:31-39 | the patterns are anchored only at the start, so anything appended to an allowed command keeps it allowed |
| AllowList.RefusedByFirstChar | server.mjs:31-39 | a command whose first character does not start a tool name (p, n, y, d, b) is refused |
| AllowList.PnpmDevAllowed | server.mjs:32 | `pnpm dev` is allowed |
| AllowList.NodeAllowed | server.mjs:36 | `node server.js` is allowed |
| AllowList.RefusedExamples | server.mjs:443 | `rm -rf /` and a command with a `PORT=` prefix are refused |
| PortScan.ScanFrom | server.mjs:115-120 | the scan returns the first free port at or after its position, or reports the whole range taken |
| PortScan.FindAvailablePort | server.mjs:114-122 | the result is the least free port in `[start, start + maxTries)`; the error, naming the range, is returned exactly when every port in it is taken |
| PortScan.SkipsTakenPorts | server.mjs:114-122 | with `n < 10` taken ports before a free one, the scan lands on `start + n` |
| Uptime.FormatUptime | server.mjs:947-957 | the chosen unit pair brackets the elapsed time: the leading unit is at least one and the trailing unit is below its modulus |
| Uptime.ShapeByElapsed | server.mjs:953-956 | days are shown from one day on, hours from one hour, minutes from one minute, otherwise seconds |
| Auth.EnvGate | server.mjs:95-99 | from the environment (server.mjs:41-42) to the verdict: unless the flag is exactly `true` every request passes; with it, a request passes exactly when it supplies the configured token and that token is non-empty |
| Auth.OneTokenPasses | server.mjs:95-99 | with authentication on, at most one supplied value is accepted, and it is a non-empty string |
| Auth.NoTokenLocksOut | server.mjs:97 | with authentication on and no token configured, every request is refused |
| Ansi.LeadingSgr | server.mjs:198 | a recognised sequence is `ESC [` followed by at least one digit and `m`, and only text starting with ESC can begin one |
| Ansi.LexSpells | server.mjs:198 | the scan `Lex` loses nothing: its tokens spell the input text |
| Ansi.LexCanonical | server.mjs:198 | the scan copies a character only where no SGR sequence starts |
| Ansi.LexUnique | server.mjs:198 | any canonical tokenisation of a text is the one the scan produces |
| Ansi.SgrPrefixRendered | server.mjs:198-203 | at a recognised sequence the output is the code's replacement (a colour span opening for a colour code, a closing tag for 0, nothing otherwise) followed by the output for the rest |
| Ansi.PlainPrefixCopied | server.mjs:198 | where no sequence starts, the character is copied and the output continues with the rest |
| Ansi.AnsiToHtml | server.mjs:190-205 | text without an escape character comes out unchanged |
| Ansi.PlainText | server.mjs:198 | replacing over escape-free text is the identity |
| Ansi.ConcatMapAppend | server.mjs:198 | the replacement acts on each token independently: the output for two token sequences is the concatenation of their outputs |
| LogStore.Filter | server.mjs:841 | the filtered sequence keeps each element that satisfies the predicate exactly as many times as the input has it and drops every other |
| LogStore.FilterAppend | server.mjs:841 | filtering distributes over concatenation, so the kept elements keep their relative order |
| LogStore.KeptLines | server.mjs:626 | the kept lines are the split pieces that are not blank, untrimmed, each as often as it occurs |
| LogStore.KeptLinesConcat | server.mjs:626 | splitting after a line break commutes with concatenation: the kept lines of two chunks, the first ending in a break, are those of each chunk in turn |
| Strings.SplitAfterSep | server.mjs:626 | a text ending in the separator splits into its pieces followed by an empty one, and appending text only extends the last piece |
| LogStore.Newest | server.mjs:640-642 | the newest `n` records form a suffix of the buffer of length `min(n, size)` |
| LogStore.NewestOfNewest | server.mjs:640-642 | trimming before or after appending gives the same newest records |
| LogStore.PushAllKeepsNewest | server.mjs:627-643 | pushing line by line with eviction keeps exactly the newest 10000 records of old buffer plus new lines |
| LogStore.Capture | server.mjs:625-644 | a chunk with no kept line changes nothing; otherwise the buffer is the newest 10000 of the old records followed by one record per kept line, in order, carrying the chunk's time and the child's pid |
| LogStore.Recent | server.mjs:836 | `slice(-lines)` gives the newest `lines` records for a positive count, the whole buffer for zero, and drops the oldest records for a negative count |
| LogStore.Query | server.mjs:836-851 | the query fails exactly when a non-empty pattern does not compile, and then names the pattern; otherwise it is exactly the records of the slice whose line matches, in order and with their multiplicity |
| Health.ProbeUpdate | server.mjs:145-168 | a probe marks the entry healthy exactly on a 2xx status, records the check time and the thrown message, and appends one warning exactly on a non-2xx status |
| Health.WarningOverflows | server.mjs:154-157 | the warning push does not evict, so a full buffer grows past 10000 |
| Registry.ResolveRange | server.mjs:130-134 | a name resolves to itself or to the target of some alias |
| Registry.ResolveIdempotentIff | server.mjs:130-134 | resolving twice gives the same label as resolving once exactly when no alias leads to a name that is redirected elsewhere |
| Registry.ResolveOneStep | server.mjs:132 | alias chains are not followed |
| Registry.AliasShadowsLabel | server.mjs:132 | an alias hides a registered label with the same spelling |
| Registry.ServiceLabel | server.mjs:430 | a service label is the project name, a colon and the service's own label, or the bare label without a project name |
| Registry.ProjectsDisjoint | server.mjs:516 | different colon-free project names select disjoint sets of labels |
| Registry.ServiceLabelSelected | server.mjs:516 | a service started for a colon-free project is selected by that project's filter and no other |
| Supervisor.SetEntryKeepsOrder | server.mjs:690 | `procs.set` keeps the iteration order in step with the registry: a present label keeps its position, and a new one is appended |
| Supervisor.Remove | server.mjs:686 | removing a label from the order keeps every other label and keeps labels distinct |
| Supervisor.RemoveIsFilter | server.mjs:686 | removing a label from the order is filtering it out, so the remaining labels keep their order |
| Supervisor.DeleteEntry | server.mjs:686 | `procs.delete` removes exactly the label, from the registry and from the order, and keeps the order free of duplicates |
| Supervisor.StopHealthCheck | server.mjs:181-187 | the label loses its checker, its interval is cleared, and every other checker is untouched |
| Supervisor.StartHealthCheck | server.mjs:137-178 | a fresh interval probes the label and port, replacing the label's checker, and one first probe is scheduled |
| Supervisor.ProbedExactlyWhenMonitored | server.mjs:702-704 | a new entry gets a checker on a fresh interval exactly when its main port is truthy or its endpoint is non-empty; it probes the main port, or 3000 without one; otherwise no checker or interval changes |
| Supervisor.StartProcess | server.mjs:611-706 | the child gets a fresh pid, its entry is recorded with an empty log and `starting` health, and a checker is started when monitored |
| Supervisor.Start | server.mjs:595-709 | a present raw label is refused before the allow-list is consulted; on success exactly that label is added, last in order, with `starting` health, in the given or current directory, running `pnpm dev` only for an absent command, auto-restarting unless that is explicitly false, and every other entry is unchanged |
| Supervisor.Stop | server.mjs:734-794 | an unresolvable name fails; otherwise the entry stays, its auto-restart is off, its checker and that checker's interval are gone, one forced kill is scheduled, and every other checker, interval and field is unchanged |
| Supervisor.Restart | server.mjs:797-825 | a running name is stopped and a delayed start scheduled, which falls back to the old command and directory, keeps the old ports and drops the health endpoint; otherwise the outcome is exactly that of `start` |
| Supervisor.OnOutput | server.mjs:625-647 | an output chunk is captured into its child's own entry, and nowhere once that entry has been replaced; nothing else changes |
| Supervisor.OnSpawnError | server.mjs:649-659 | the error record is appended without eviction to the child's own entry, and nowhere once that entry has been replaced; nothing else changes |
| Supervisor.OnExit | server.mjs:661-688 | the child's own entry gets one exit record and the label's checker is cleared; a relaunch is scheduled exactly when the current entry auto-restarts, the code is not 0 and the signal is neither SIGTERM nor SIGKILL, and the entry then keeps the exited child's pid; otherwise the label is removed from the registry and the order; only the label's checker and its interval are cleared, and the counters, aliases and directory are unchanged |
| Supervisor.OnTimer | server.mjs:679-684 | a relaunch runs whenever the label is present, without re-checking auto-restart, moves the label to the end of the registry order and leaves every other entry unchanged; a forced kill removes the label from the registry and the order and changes nothing else (server.mjs:778-787); a first probe is sent; a settling restart runs `start`, and when that fails the server process ends (server.mjs:809-816) |
| Lifecycle.TickProbesItsLabel | server.mjs:173 | an interval's tick sends exactly one probe, for the label whose checker owns the interval, and changes nothing else |
| Supervisor.OnProbeDone | server.mjs:145-168 | a settled probe updates whatever entry holds its label, and nothing when none does |
| Lifecycle.InitInv | server.mjs:18 | the empty registry satisfies the invariant |
| Lifecycle.StartProcessInv | server.mjs:690-700 | recording a new entry keeps the invariant |
| Lifecycle.StopHealthCheckInv | server.mjs:181-187 | clearing a checker keeps every other checker pointing at a running interval |
| Lifecycle.ExitInv | server.mjs:661-688 | the exit handler keeps the invariant |
| Lifecycle.TimerInv | server.mjs:679-684 | every timer keeps the invariant |
| Lifecycle.NextInv | server.mjs:18 | every command and event of `Next` keeps the invariant: each label is listed once in order, each entry describes its own child's launch, and each checker probes for its label |
| Lifecycle.Run | server.mjs:18 | every state reached from one satisfying the invariant by a sequence of enabled steps satisfies it |
| Lifecycle.EntriesOwnTheirChildren | server.mjs:627-634 | each entry shows its child's own buffer, and no two entries share a child |
| Commands.FormatLogsLines | server.mjs:872-880 | without colour the reply has exactly one line per record, in order |
| Commands.Logs | server.mjs:827-892 | an unresolvable name fails; an invalid pattern, no records, streaming or the formatted records are reported exactly when the query says so |
| Commands.AliasesResolveToLabel | server.mjs:929-932 | the aliases listed for a label are exactly the other names that resolve to it |
| Commands.StatusRows | server.mjs:894-945 | rows come from registry entries, one per registered label the project selects, in registry order |
| Commands.StopEach | server.mjs:516-523 | each stop succeeds exactly when its name resolves to an entry; no entry is removed and no child is replaced |
| Commands.StopEachDisarms | server.mjs:516-523 | every stopped label ends without auto-restart or checker, and an already disarmed entry stays disarmed |
| Commands.GroupStop | server.mjs:511-541 | one outcome per project label in registry order, and every entry is still registered afterwards |
| Commands.GroupStopDisarms | server.mjs:515-524 | without shadowing aliases, every project label is stopped, loses auto-restart and its checker, and stays registered |
| Commands.StopEachDisarmsAll | server.mjs:516-523 | when every label is registered under its own name, every stop succeeds and leaves its label disarmed |
| Commands.Down | server.mjs:544-593 | with a configuration, exactly the present configured service labels are stopped, in configuration order; without one, exactly the labels started in the directory, in registry order; a stop succeeds exactly when its name resolves to an entry |
| Commands.DownDisarms | server.mjs:544-593 | when no alias redirects a registered label, every stop of `down` succeeds and every selected label ends disarmed |
| Services.PlanConvex | server.mjs:448-458 | with both Convex ports truthy, the plan succeeds exactly when both scans do, each port moves to its nearest free port, and the command changes exactly when it contains `convex dev`, by appending the two port flags |
| Services.PlanService | server.mjs:437-458 | the plan succeeds exactly when every scan that runs succeeds; the main port is the least free port from the configured one; the command is exactly the configured one, preceded by `PORT=<port> ` when that port differs, followed by the Convex flags with the scanned cloud and site ports when both are set and the command contains `convex dev` |
| Services.ShiftedExactly | server.mjs:439-445 | the command is rewritten exactly when the configured port is taken |
| Services.PlanAllowed | server.mjs:443 | the planned command of an allowed service is allowed exactly when the `PORT=` prefix was not added |
| Services.StartService | server.mjs:428-474 | as written, a service starts exactly when its command is allowed, its scans succeed, its configured port was free and its label is not registered |
| Services.ShiftedPortRefused | server.mjs:604 | as written, a service whose configured port is taken is refused by the second allow-list check |
| Services.StartServiceFixed | server.mjs:428-474 | corrected: a service starts exactly when its configured command is allowed, its ports are found and its label is free |
| Services.ShiftedPortStarts | server.mjs:440-445 | corrected: a service whose port is taken starts on the nearest free port with the `PORT=` prefix |
| Services.Up | server.mjs:382-425 | one outcome per service, using `startService` as written; each reported label is registered afterwards, no service with a taken port is started, and no entry is removed |
| Services.UpStartsExactly | server.mjs:408-421 | `up` starts a service exactly when its command is allowed, its ports are found, its configured port was free, its label was not registered before and no earlier service of the list took that label |
| Services.UpStartsStartable | server.mjs:408-421 | with distinct, unregistered labels, `up` starts exactly the services whose command is allowed, whose ports are found and whose configured port was free |
| Hazards.StopDuringRelaunchDelay | server.mjs:679-684 | a crash followed by `stop` within three seconds still relaunches, and the new entry auto-restarts again |
| Hazards.LateOutputDuringRelaunchDelay | server.mjs:646-647 | output the exited child's pipes still deliver during the relaunch delay is captured into the visible buffer, because the entry keeps the old pid until the relaunch |
| Hazards.ForceKillOrphansSuccessor | server.mjs:778-787 | a forced kill that fires after the label was restarted removes the new entry while its child keeps running |
| Hazards.StaleExitRemovesSuccessor | server.mjs:661-688 | a replaced child's late exit removes the entry that replaced it and clears its checker |
| Hazards.FirstProbeOutlivesStop | server.mjs:177 | the first probe survives `stop` and still writes the stopped entry's health |
| Hazards.CheckerReplacedNotCleared | server.mjs:173-174 | a second checker for a label leaves the first interval running with nothing referring to it |
| Hazards.RestartSettleWhileRegistered | server.mjs:809-819 | if the old child is still registered when the delayed start fires, `start` throws inside the timer callback, nothing starts, and the server process ends |
| Hazards.SpawnErrorOverflows | server.mjs:649-658 | the error push does not evict, so a full buffer grows past 10000 |

## Left out

- The MCP server, tool schemas, request dispatch and the SIGINT handler (server.mjs:46-62, 217-379, 959-993): transport plumbing. Authentication is modelled as `Auth.CheckAuth` only.
- `spawn` and process-group signals (server.mjs:612-619, 766-786): the exit code and signal are event parameters. A pid is a fresh counter and is never reused. A spawn failure that leaves the child without a pid is not modelled.
- The `pkill` cleanup for Convex commands (server.mjs:752-764): `stop` is modelled as one atomic step. Events that could run while it awaits `pkill` are not interleaved.
- `checkPort` (server.mjs:102-111): replaced by the oracle `free`. A single oracle serves all scans of one `startService`, and the ports a started service occupies are not fed back.
- Services.StartService and Services.Up: each is modelled as one atomic step, although the program awaits `checkPort` inside every port scan (server.mjs:102-109, 117). Exit handlers, timers and other requests that could run during those waits are not interleaved, so the label conditions of `StartService`, `UpStartsExactly` and `UpStartsStartable` refer to the registry as it was when the command began.
- The `fetch` probe (server.mjs:142): its outcome is the `ProbeResult` parameter.
- The filesystem: log directory creation, `saveLog`, `.devserver.json` parsing and the `groupStart` directory search (server.mjs:23-27, 65-87, 208-215, 476-509). `up` takes the parsed service list; `down` takes the configured service labels or `None`. `groupStart` is not modelled, because it only lists labels and then searches directories.
- `up`'s message for a missing configuration (server.mjs:385-405): text only.
- Wall-clock timers: each `setTimeout`/`setInterval` firing is an explicit event, and pending timers may fire in any order. The model ignores the 2, 3, 5 and 1 second delays, so it allows more interleavings than the program can produce.
- The process exit on an unhandled rejection (server.mjs:809-816) assumes Node.js 15 or later; the model marks the state as crashed and enables no further step. The promise `restart` returns, which never settles in that case, is not modelled.
- Dates: timestamps are integer milliseconds, and `toLocaleTimeString` is the `clock` oracle.
- LogStore.Capture: stamps every line of a chunk with the one time of the output event. The program calls `new Date()` for each line (server.mjs:627-629), after the previous line's file append, so the lines of one chunk may carry different, non-decreasing times.
- The JavaScript `RegExp` engine behind `grep` and the `strip-ansi` package: both are parameters (`RegexEngine`, `Formatter.strip`).
- `path.resolve`: a directory is used as given.
- User-facing messages: `start`, `stop`, `status`, `groupStop` and `down` return structured results instead of text. Only the log lines the code stores are spelled out.
- The `label` field of log records: it always equals the entry's label and is omitted. The `portChanged` reply fields of `start` are omitted too.
- Uptime.FormatUptime: returns the unit pair rather than the Japanese wording.
- Services.Up: does not state, for a service that failed, whether its label is registered afterwards (it may have been registered before).

## Findings

| source | as written | input that shows it | evidently intended | confidence | as-written member | corrected member |
|---|---|---|---|---|---|---|
| server.mjs:443 | when the configured port is taken, `startService` prefixes the command with `PORT=<n> `, and `start` then re-checks the rewritten command against the allow-list (server.mjs:604); no pattern accepts a command starting with `P`, so the service is always refused | a service `{label: "next", command: "pnpm dev", port: 3000}` while port 3000 is in use and 3001 is free | the service starts on port 3001 with `PORT=3001 pnpm dev` | not executed | Services.ShiftedPortRefused | Services.ShiftedPortStarts |

`Services.Up` follows the code and starts each service through `Services.StartService`, so the refusal above also applies to `up`; `Services.StartServiceFixed` is the corrected `startService`.

=== FILE: allowlist.dfy ===
/** The command allow-list (server.mjs:31-39, 90-92): seven regular expressions,
    each anchored at the start of the command but not at its end. */
module AllowList {
  import opened Strings

  /** One element of a start-anchored command pattern. */
  datatype Piece =
    | Lit(text: string)            // the characters themselves
    | Spaces                       // `\s+`
    | Word                         // `\w+`
    | OneOf(options: seq<string>)  // `(a|b|c)`

  type Pattern = seq<Piece>

  const DevScripts: seq<string> := ["dev", "start", "serve"]

  /** `CONFIG.allowedCommands`, in the source's order. */
  const AllowedCommands: seq<Pattern> := [PnpmScript, NpmRun, ConvexDev, YarnScript, Runtime("node"), Runtime("deno"), Runtime("bun")]

  const PnpmScript: Pattern := [Lit("pnpm"), Spaces, OneOf(DevScripts)]
  const NpmRun: Pattern := [Lit("npm"), Spaces, Lit("run"), Spaces, Word]
  const ConvexDev: Pattern := [Lit("npx"), Spaces, Lit("convex"), Spaces, Lit("dev")]
  const YarnScript: Pattern := [Lit("yarn"), Spaces, OneOf(DevScripts)]

  /** `/^node\s+/`, `/^deno\s+/`, `/^bun\s+/`. */
  function Runtime(name: string): Pattern {
    [Lit(name), Spaces]
  }

  /** Every character of `c[i..j]` is in the class. */
  ghost predicate Run(c: string, i: nat, j: nat, cls: char -> bool) {
    j <= |c| && forall k | i <= k < j :: cls(c[k])
  }

  /** Reference semantics: the pattern matches some prefix of `c[i..]`,
      where `\s+` and `\w+` may consume any non-empty run of their class. */
  ghost predicate MatchesAt(p: Pattern, c: string, i: nat)
    decreases |p|
  {
    i <= |c| &&
    (p == [] ||
      match p[0]
      case Lit(t) => t <= c[i..] && MatchesAt(p[1..], c, i + |t|)
      case OneOf(ts) => exists t | t in ts :: t <= c[i..] && MatchesAt(p[1..], c, i + |t|)
      case Spaces => exists j | i < j <= |c| :: Run(c, i, j, IsSpace) && MatchesAt(p[1..], c, j)
      case Word => exists j | i < j <= |c| :: Run(c, i, j, IsWordChar) && MatchesAt(p[1..], c, j))
  }

  /** The matcher: `\s+` and `\w+` consume the longest run of their class. */
  predicate Scan(p: Pattern, c: string, i: nat)
    requires i <= |c|
    decreases |p|
  {
    p == [] ||
      match p[0]
      case Lit(t) => t <= c[i..] && Scan(p[1..], c, i + |t|)
      case OneOf(ts) => exists t | t in ts :: t <= c[i..] && Scan(p[1..], c, i + |t|)
      case Spaces => var j := Skip(c, i, IsSpace); i < j && Scan(p[1..], c, j)
      case Word => var j := Skip(c, i, IsWordChar); i < j && Scan(p[1..], c, j)
  }

  /** `isCommandAllowed`: some allowed pattern matches at the start. */
  predicate IsCommandAllowed(c: string) {
    exists p | p in AllowedCommands :: Scan(p, c, 0)
  }

  /** The piece can only begin with a character outside the class. */
  ghost predicate StartsOutside(piece: Piece, cls: char -> bool) {
    match piece
    case Lit(t) => |t| > 0 && !cls(t[0])
    case OneOf(ts) => forall t | t in ts :: |t| > 0 && !cls(t[0])
    case Spaces => forall ch :: IsSpace(ch) ==> !cls(ch)
    case Word => forall ch :: IsWordChar(ch) ==> !cls(ch)
  }

  /** A run piece is followed by nothing or by a piece that cannot start
      inside the run's class, so the longest run is the only one that can
      lead to a match. */
  ghost predicate WellFormed(p: Pattern) {
    forall k | 0 <= k < |p| - 1 ::
      (p[k].Spaces? ==> StartsOutside(p[k + 1], IsSpace))
      && (p[k].Word? ==> StartsOutside(p[k + 1], IsWordChar))
  }

  lemma WellFormedTail(p: Pattern)
    requires p != [] && WellFormed(p)
    ensures WellFormed(p[1..])
  {
    forall k | 0 <= k < |p[1..]| - 1
      ensures (p[1..][k].Spaces? ==> StartsOutside(p[1..][k + 1], IsSpace))
      ensures (p[1..][k].Word? ==> StartsOutside(p[1..][k + 1], IsWordChar))
    {
      assert p[1..][k] == p[k + 1] && p[1..][k + 1] == p[k + 2];
    }
  }

  /** A match of a pattern that starts outside `cls` begins at a character outside `cls`. */
  lemma LeadsOutside(p: Pattern, c: string, i: nat, cls: char -> bool)
    requires p != [] && StartsOutside(p[0], cls) && MatchesAt(p, c, i)
    ensures i < |c| && !cls(c[i])
  {
    match p[0]
    case Lit(t) =>
      assert c[i..][0] == t[0];
    case OneOf(ts) =>
      var t :| t in ts && t <= c[i..] && MatchesAt(p[1..], c, i + |t|);
      assert c[i..][0] == t[0];
    case Spaces =>
      var j :| i < j <= |c| && Run(c, i, j, IsSpace) && MatchesAt(p[1..], c, j);
      assert IsSpace(c[i]);
    case Word =>
      var j :| i < j <= |c| && Run(c, i, j, IsWordChar) && MatchesAt(p[1..], c, j);
      assert IsWordChar(c[i]);
  }

  /** The longest-run matcher agrees with the reference semantics. */
  lemma {:induction false} ScanIsMatch(p: Pattern, c: string, i: nat)
    requires i <= |c| && WellFormed(p)
    ensures Scan(p, c, i) <==> MatchesAt(p, c, i)
    decreases |p|
  {
    if p != [] {
      var rest := p[1..];
      WellFormedTail(p);
      forall j | i <= j <= |c|
        ensures Scan(rest, c, j) <==> MatchesAt(rest, c, j)
      {
        ScanIsMatch(rest, c, j);
      }
      match p[0]
      case Lit(t) =>
      case OneOf(ts) =>
      case Spaces =>
        var j := Skip(c, i, IsSpace);
        if MatchesAt(p, c, i) {
          var k :| i < k <= |c| && Run(c, i, k, IsSpace) && MatchesAt(rest, c, k);
          if rest != [] {
            assert StartsOutside(p[1], IsSpace);
            LeadsOutside(rest, c, k, IsSpace);
            SkipUnique(c, i, k, IsSpace);
          } else {
            assert IsSpace(c[i]);
          }
        }
        if Scan(p, c, i) {
          assert Run(c, i, j, IsSpace);
        }
      case Word =>
        var j := Skip(c, i, IsWordChar);
        if MatchesAt(p, c, i) {
          var k :| i < k <= |c| && Run(c, i, k, IsWordChar) && MatchesAt(rest, c, k);
          if rest != [] {
            assert StartsOutside(p[1], IsWordChar);
            LeadsOutside(rest, c, k, IsWordChar);
            SkipUnique(c, i, k, IsWordChar);
          } else {
            assert IsWordChar(c[i]);
          }
        }
        if Scan(p, c, i) {
          assert Run(c, i, j, IsWordChar);
        }
    }
  }

  /** The reference semantics only looks at a prefix, so appending text
      never breaks a match. */
  lemma {:induction false} MatchesExtend(p: Pattern, c: string, i: nat, s: string)
    requires MatchesAt(p, c, i)
    ensures MatchesAt(p, c + s, i)
    decreases |p|
  {
    if p != [] {
      assert (c + s)[i..] == c[i..] + s;
      match p[0]
      case Lit(t) =>
        MatchesExtend(p[1..], c, i + |t|, s);
      case OneOf(ts) =>
        var t :| t in ts && t <= c[i..] && MatchesAt(p[1..], c, i + |t|);
        MatchesExtend(p[1..], c, i + |t|, s);
        assert t <= (c + s)[i..];
      case Spaces =>
        var j :| i < j <= |c| && Run(c, i, j, IsSpace) && MatchesAt(p[1..], c, j);
        MatchesExtend(p[1..], c, j, s);
        assert Run(c + s, i, j, IsSpace);
      case Word =>
        var j :| i < j <= |c| && Run(c, i, j, IsWordChar) && MatchesAt(p[1..], c, j);
        MatchesExtend(p[1..], c, j, s);
        assert Run(c + s, i, j, IsWordChar);
    }
  }

  lemma DevScriptsStartOutside()
    ensures StartsOutside(OneOf(DevScripts), IsSpace)
  {
    assert !IsSpace('d') && !IsSpace('s');
    forall t | t in DevScripts
      ensures |t| > 0 && !IsSpace(t[0])
    {
    }
  }

  lemma NpmRunWellFormed()
    ensures WellFormed(NpmRun)
  {
    assert !IsSpace('r');
    assert StartsOutside(Lit("run"), IsSpace);
    assert StartsOutside(Word, IsSpace);
  }

  lemma ConvexDevWellFormed()
    ensures WellFormed(ConvexDev)
  {
    assert !IsSpace('c') && !IsSpace('d');
    assert StartsOutside(Lit("convex"), IsSpace);
    assert StartsOutside(Lit("dev"), IsSpace);
  }

  lemma ScriptWellFormed(tool: string)
    requires |tool| > 0
    ensures WellFormed([Lit(tool), Spaces, OneOf(DevScripts)])
  {
    DevScriptsStartOutside();
  }

  lemma RuntimeWellFormed(name: string)
    ensures WellFormed(Runtime(name))
  {
  }

  lemma AllWellFormed()
    ensures forall p | p in AllowedCommands :: WellFormed(p)
  {
    ScriptWellFormed("pnpm");
    ScriptWellFormed("yarn");
    NpmRunWellFormed();
    ConvexDevWellFormed();
    RuntimeWellFormed("node");
    RuntimeWellFormed("deno");
    RuntimeWellFormed("bun");
    forall p | p in AllowedCommands
      ensures WellFormed(p)
    {
    }
  }

  /** The allow-list check is the reference regular-expression test. */
  lemma AllowedIsMatch(c: string)
    ensures IsCommandAllowed(c) <==> exists p | p in AllowedCommands :: MatchesAt(p, c, 0)
  {
    AllWellFormed();
    forall p: Pattern | p in AllowedCommands
      ensures Scan(p, c, 0) <==> MatchesAt(p, c, 0)
    {
      ScanIsMatch(p, c, 0);
    }
  }

  /** The patterns are not anchored at the end: an allowed command stays
      allowed whatever is appended to it. */
  lemma AllowedExtends(c: string, s: string)
    requires IsCommandAllowed(c)
    ensures IsCommandAllowed(c + s)
  {
    AllowedIsMatch(c);
    AllowedIsMatch(c + s);
    var p :| p in AllowedCommands && MatchesAt(p, c, 0);
    MatchesExtend(p, c, 0, s);
  }

  /** Every pattern starts with a tool name, so a command that does not
      begin with one of their first letters is refused. */
  lemma RefusedByFirstChar(c: string)
    requires c == [] || c[0] !in "pnydb"
    ensures !IsCommandAllowed(c)
  {
    forall p: Pattern | p in AllowedCommands
      ensures !Scan(p, c, 0)
    {
      assert p[0].Lit? && p[0].text[0] in "pnydb";
      if c != [] {
        assert c[0..][0] == c[0];
      }
    }
  }

  /** Small cases of the allow-list, as the regular expressions decide them. */
  lemma PnpmDevAllowed()
    ensures IsCommandAllowed("pnpm dev")
  {
    var c := "pnpm dev";
    PnpmDevScan();
    assert AllowedCommands[0] == PnpmScript;
    assert Scan(AllowedCommands[0], c, 0);
  }

  lemma PnpmDevScan()
    ensures Scan(PnpmScript, "pnpm dev", 0)
  {
    var c := "pnpm dev";
    var tail := [Spaces, OneOf(DevScripts)];
    assert Scan(tail, c, 4) by {
      assert Scan([OneOf(DevScripts)], c, 5) by {
        assert DevScripts[0] == "dev" && "dev" <= c[5..];
        assert [OneOf(DevScripts)][1..] == [];
        assert Scan([], c, 8);
      }
      SkipUnique(c, 4, 5, IsSpace);
      assert tail[1..] == [OneOf(DevScripts)];
    }
    assert "pnpm" <= c[0..];
    assert PnpmScript[1..] == tail;
  }

  lemma NodeAllowed()
    ensures IsCommandAllowed("node server.js")
  {
    var c := "node server.js";
    SkipUnique(c, 4, 5, IsSpace);
    assert "node" <= c[0..];
    assert Runtime("node")[1..] == [Spaces];
    assert Scan([Spaces], c, 4) by {
      assert [Spaces][1..] == [];
    }
    assert Scan(Runtime("node"), c, 0);
    assert Runtime("node") in AllowedCommands;
  }

  lemma RefusedExamples()
    ensures !IsCommandAllowed("rm -rf /")
    ensures !IsCommandAllowed("PORT=3001 pnpm dev")
  {
    RefusedByFirstChar("rm -rf /");
    RefusedByFirstChar("PORT=3001 pnpm dev");
  }
}

=== FILE: ansi.dfy ===
/** `ansiToHtml` (server.mjs:190-205): the global replacement of
    `/\x1b\[(\d+)m/g`, that is of the Select Graphic Rendition control
    sequence `ESC [ digits m` of ECMA-48 section 8.3.117 with a single
    parameter. Foreground colour codes open a coloured span, code `0`
    closes one, and every other code is dropped. */
module Ansi {
  import opened Wrappers
  import opened Strings

  const Esc: char := 27 as char

  /** A piece of text as the replacement sees it: a character copied
      through, or one recognised SGR sequence with its parameter digits. */
  datatype Token = Plain(ch: char) | Sgr(code: string)

  function Spelling(t: Token): string {
    match t
    case Plain(c) => [c]
    case Sgr(code) => [Esc, '['] + code + ['m']
  }

  /** The text a token sequence spells. */
  function Unlex(ts: seq<Token>): string {
    if ts == [] then [] else Spelling(ts[0]) + Unlex(ts[1..])
  }

  predicate AllDigits(s: string) {
    forall k | 0 <= k < |s| :: IsDigit(s[k])
  }

  /** The parameter of an SGR sequence at the very start of `s`, if any;
      `\d+` is greedy and the next character must be `m`. */
  function LeadingSgr(s: string): (r: Option<string>)
    ensures r.Some? ==> |r.value| >= 1 && AllDigits(r.value) && Spelling(Sgr(r.value)) <= s
    ensures |s| == 0 || s[0] != Esc ==> r.None?
  {
    if |s| >= 2 && s[0] == Esc && s[1] == '[' then
      var j := Skip(s, 2, IsDigit);
      if j > 2 && j < |s| && s[j] == 'm' then
        assert [Esc, '['] + s[2..j] + ['m'] == s[..j + 1];
        Some(s[2..j])
      else None
    else None
  }

  /** The left-to-right scan of the global replacement. */
  function Lex(s: string): seq<Token>
    decreases |s|
  {
    if s == [] then []
    else match LeadingSgr(s)
      case Some(code) => [Sgr(code)] + Lex(s[|code| + 3..])
      case None => [Plain(s[0])] + Lex(s[1..])
  }

  /** What a left-to-right scan can produce: a character is copied only
      where no SGR sequence starts, and every sequence has a digit. */
  ghost predicate Canonical(ts: seq<Token>) {
    forall k | 0 <= k < |ts| ::
      match ts[k]
      case Plain(_) => LeadingSgr(Unlex(ts[k..])) == None
      case Sgr(code) => |code| >= 1 && AllDigits(code)
  }

  ghost predicate HeadOk(t: Token, rest: seq<Token>) {
    match t
    case Plain(_) => LeadingSgr(Unlex([t] + rest)) == None
    case Sgr(code) => |code| >= 1 && AllDigits(code)
  }

  lemma CanonicalCons(t: Token, rest: seq<Token>)
    ensures Canonical([t] + rest) <==> HeadOk(t, rest) && Canonical(rest)
  {
    var ts := [t] + rest;
    assert ts[0..] == ts;
    forall k | 1 <= k < |ts|
      ensures ts[k] == rest[k - 1] && ts[k..] == rest[k - 1..]
    {
    }
    if HeadOk(t, rest) && Canonical(rest) {
      forall k | 0 <= k < |ts|
        ensures match ts[k]
                case Plain(_) => LeadingSgr(Unlex(ts[k..])) == None
                case Sgr(code) => |code| >= 1 && AllDigits(code)
      {
        if k > 0 {
          assert ts[k] == rest[k - 1];
        }
      }
    }
    if Canonical(ts) {
      forall k | 0 <= k < |rest|
        ensures match rest[k]
                case Plain(_) => LeadingSgr(Unlex(rest[k..])) == None
                case Sgr(code) => |code| >= 1 && AllDigits(code)
      {
        assert ts[k + 1] == rest[k];
      }
    }
  }

  lemma UnlexCons(t: Token, rest: seq<Token>)
    ensures Unlex([t] + rest) == Spelling(t) + Unlex(rest)
  {
    assert ([t] + rest)[1..] == rest;
  }

  /** A well-formed SGR sequence at the front is the one the scan finds. */
  lemma LeadingSgrOfSpelling(code: string, rest: string)
    requires |code| >= 1 && AllDigits(code)
    ensures LeadingSgr(Spelling(Sgr(code)) + rest) == Some(code)
  {
    var s := Spelling(Sgr(code)) + rest;
    var j := 2 + |code|;
    forall k | 2 <= k < j
      ensures IsDigit(s[k])
    {
      assert s[k] == code[k - 2];
    }
    assert s[j] == 'm';
    SkipUnique(s, 2, j, IsDigit);
    assert s[2..j] == code;
  }

  lemma PrefixSplit(p: string, s: string)
    requires p <= s
    ensures s == p + s[|p|..]
  {
  }

  /** The scan loses nothing: its tokens spell the text. */
  lemma {:induction false} LexSpells(s: string)
    ensures Unlex(Lex(s)) == s
    decreases |s|
  {
    if s != [] {
      var r := LeadingSgr(s);
      if r.Some? {
        var code := r.value;
        var rest := s[|code| + 3..];
        LexSpells(rest);
        UnlexCons(Sgr(code), Lex(rest));
        PrefixSplit(Spelling(Sgr(code)), s);
      } else {
        LexSpells(s[1..]);
        UnlexCons(Plain(s[0]), Lex(s[1..]));
        assert s == [s[0]] + s[1..];
      }
    }
  }

  /** The scan produces a canonical token sequence. */
  lemma {:induction false} LexCanonical(s: string)
    ensures Canonical(Lex(s))
    decreases |s|
  {
    if s != [] {
      LexSpells(s);
      match LeadingSgr(s)
      case Some(code) =>
        var rest := s[|code| + 3..];
        LexCanonical(rest);
        assert Lex(s) == [Sgr(code)] + Lex(rest);
        CanonicalCons(Sgr(code), Lex(rest));
      case None =>
        LexCanonical(s[1..]);
        assert Lex(s) == [Plain(s[0])] + Lex(s[1..]);
        assert Unlex([Plain(s[0])] + Lex(s[1..])) == s;
        CanonicalCons(Plain(s[0]), Lex(s[1..]));
    }
  }

  /** The scan is the only canonical reading of a text: any canonical token
      sequence is what `Lex` returns for the text it spells. */
  lemma {:induction false} LexUnique(ts: seq<Token>)
    requires Canonical(ts)
    ensures Lex(Unlex(ts)) == ts
    decreases |ts|
  {
    if ts != [] {
      var t, rest := ts[0], ts[1..];
      assert ts == [t] + rest;
      CanonicalCons(t, rest);
      UnlexCons(t, rest);
      LexUnique(rest);
      var s := Unlex(ts);
      match t
      case Plain(c) =>
        assert s[1..] == Unlex(rest);
      case Sgr(code) =>
        LeadingSgrOfSpelling(code, Unlex(rest));
        assert s[|code| + 3..] == Unlex(rest);
    }
  }

  /** The colour table of `ansiToHtml`. */
  const Colors: map<string, string> := map[
    "30" := "black", "31" := "red", "32" := "green", "33" := "yellow",
    "34" := "blue", "35" := "magenta", "36" := "cyan", "37" := "white",
    "90" := "gray", "91" := "lightred", "92" := "lightgreen", "93" := "lightyellow",
    "94" := "lightblue", "95" := "lightmagenta", "96" := "lightcyan", "97" := "white"
  ]

  /** The replacement of one token. */
  function RenderToken(t: Token): (out: string)
    ensures t.Plain? ==> out == [t.ch]
    ensures t.Sgr? && t.code in Colors ==> out == "<span style=\"color: " + Colors[t.code] + "\">"
    ensures t.Sgr? && t.code == "0" ==> out == "</span>"
    ensures t.Sgr? && t.code !in Colors && t.code != "0" ==> out == ""
  {
    match t
    case Plain(c) => [c]
    case Sgr(code) =>
      if code in Colors then "<span style=\"color: " + Colors[code] + "\">"
      else if code == "0" then "</span>"
      else ""
  }

  /** The output `replace` assembles: each token's replacement, in order. */
  function ConcatMap(ts: seq<Token>, f: Token -> string): string {
    if ts == [] then [] else f(ts[0]) + ConcatMap(ts[1..], f)
  }

  function Render(ts: seq<Token>): string {
    ConcatMap(ts, RenderToken)
  }

  /** `ansiToHtml(text)`. */
  function AnsiToHtml(text: string): (html: string)
    ensures Esc !in text ==> html == text
  {
    PlainText(text);
    Render(Lex(text))
  }

  /** Text without an escape character passes through unchanged. */
  lemma {:induction false} PlainText(s: string)
    ensures Esc !in s ==> Render(Lex(s)) == s
    decreases |s|
  {
    if s != [] && Esc !in s {
      assert LeadingSgr(s).None?;
      assert Esc !in s[1..];
      PlainText(s[1..]);
      assert Lex(s)[1..] == Lex(s[1..]);
    }
  }

  lemma ConcatMapCons(t: Token, rest: seq<Token>, f: Token -> string)
    ensures ConcatMap([t] + rest, f) == f(t) + ConcatMap(rest, f)
  {
    assert ([t] + rest)[1..] == rest;
  }

  /** The replacement acts on each token independently. */
  lemma {:induction false} ConcatMapAppend(a: seq<Token>, b: seq<Token>, f: Token -> string)
    ensures ConcatMap(a + b, f) == ConcatMap(a, f) + ConcatMap(b, f)
    decreases |a|
  {
    if a == [] {
      assert a + b == b;
    } else {
      var t, rest := a[0], a[1..];
      assert a == [t] + rest;
      assert a + b == [t] + (rest + b);
      ConcatMapAppend(rest, b, f);
      ConcatMapCons(t, rest + b, f);
      ConcatMapCons(t, rest, f);
    }
  }

  /** At a recognised sequence the output is that code's replacement (a
      coloured span opening, a span closing, or nothing) followed by the
      output for the rest of the text. */
  lemma SgrPrefixRendered(code: string, rest: string)
    requires |code| >= 1 && AllDigits(code)
    ensures AnsiToHtml(Spelling(Sgr(code)) + rest) == RenderToken(Sgr(code)) + AnsiToHtml(rest)
  {
    var s := Spelling(Sgr(code)) + rest;
    LeadingSgrOfSpelling(code, rest);
    assert s[|code| + 3..] == rest;
    assert Lex(s) == [Sgr(code)] + Lex(rest);
    ConcatMapCons(Sgr(code), Lex(rest), RenderToken);
  }

  /** Where no sequence starts, the character is copied and the output
      continues with the rest of the text. */
  lemma PlainPrefixCopied(c: char, rest: string)
    requires LeadingSgr([c] + rest).None?
    ensures AnsiToHtml([c] + rest) == [c] + AnsiToHtml(rest)
  {
    var s := [c] + rest;
    assert s[1..] == rest;
    assert Lex(s) == [Plain(c)] + Lex(rest);
    ConcatMapCons(Plain(c), Lex(rest), RenderToken);
  }
}

=== FILE: auth.dfy ===
/** `checkAuth` (server.mjs:95-99) with its configuration (server.mjs:41-42). */
module Auth {
  import opened Wrappers

  datatype AuthConfig = AuthConfig(required: bool, token: Option<string>)

  /** `DEVSERVER_AUTH === 'true'` switches authentication on; the token is
      `DEVSERVER_TOKEN` as given. */
  function ConfigFromEnv(authFlag: Option<string>, token: Option<string>): (c: AuthConfig)
    ensures c.required <==> authFlag == Some("true")
    ensures c.token == token
  {
    AuthConfig(authFlag == Some("true"), token)
  }

  /** A request passes when authentication is off, or when the server has a
      non-empty token and the request carries exactly that token. */
  function CheckAuth(cfg: AuthConfig, supplied: Option<string>): (ok: bool)
    ensures ok <==> !cfg.required || (cfg.token.Some? && cfg.token.value != "" && supplied == cfg.token)
  {
    if !cfg.required then true
    else if cfg.token.None? || cfg.token.value == "" then false
    else supplied == cfg.token
  }

  /** With authentication on but no token configured, every request is refused. */
  lemma NoTokenLocksOut(cfg: AuthConfig, supplied: Option<string>)
    requires cfg.required && (cfg.token == None || cfg.token == Some(""))
    ensures !CheckAuth(cfg, supplied)
  {
  }

  /** From the environment to the request: unless the flag is exactly
      `true` every request passes, whatever the token; with it, a request
      passes exactly when it carries the configured token and that token is
      not empty, so an empty or missing token never gets in. */
  lemma EnvGate(authFlag: Option<string>, token: Option<string>, supplied: Option<string>)
    ensures authFlag != Some("true") ==> CheckAuth(ConfigFromEnv(authFlag, token), supplied)
    ensures authFlag == Some("true") ==>
              (CheckAuth(ConfigFromEnv(authFlag, token), supplied) <==> supplied.Some? && supplied.value != "" && supplied == token)
  {
  }

  /** With authentication on at most one supplied value is accepted, and it
      is a non-empty string. */
  lemma OneTokenPasses(cfg: AuthConfig, a: Option<string>, b: Option<string>)
    requires cfg.required
    ensures CheckAuth(cfg, a) && CheckAuth(cfg, b) ==> a == b
    ensures CheckAuth(cfg, a) ==> a.Some? && a.value != ""
  {
  }
}

=== FILE: commands.dfy ===
/** The read-only `logs` and `status` commands (server.mjs:827-945) and the
    group stops `groupStop` and `down` (server.mjs:502-596), which select
    labels by project prefix or by directory and stop each in turn. */
module Commands {
  import opened Wrappers
  import opened Strings
  import opened LogStore
  import opened Health
  import opened Registry
  import opened Supervisor
  import Uptime
  import Ansi

  datatype LogsArgs = LogsArgs(name: string, lines: Option<int>, grep: Option<string>, stream: bool, color: bool)

  /** The two foreign helpers of log formatting: `toLocaleTimeString('ja-JP')`
      of a record's time, and the `strip-ansi` package. */
  datatype Formatter = Formatter(clock: Time -> string, strip: string -> string)

  datatype LogsReply =
    | InvalidPattern(pattern: string)   // the `grep` text did not compile
    | NoLogs                            // nothing to show
    | Streaming                         // `stream` was requested
    | Shown(count: nat, text: string)   // the formatted lines

  /** `[${time}] ${line}`, with the colour codes stripped unless asked for. */
  function RenderLine(rec: LogRecord, color: bool, fmt: Formatter): string {
    "[" + fmt.clock(rec.time) + "] " + (if color then rec.line else fmt.strip(rec.line))
  }

  function RenderLines(recs: seq<LogRecord>, color: bool, fmt: Formatter): (lines: seq<string>)
    ensures |lines| == |recs|
    ensures forall k | 0 <= k < |recs| :: lines[k] == RenderLine(recs[k], color, fmt)
  {
    seq(|recs|, k requires 0 <= k < |recs| => RenderLine(recs[k], color, fmt))
  }

  /** The text of the `logs` reply: one line per record, wrapped in a
      `<pre>` block with the colour codes turned into HTML when `color` is
      set. */
  function FormatLogs(recs: seq<LogRecord>, color: bool, fmt: Formatter): (text: string)
    requires recs != []
  {
    var plain := Join(RenderLines(recs, color, fmt), '\n');
    if color then "<pre>" + Ansi.AnsiToHtml(plain) + "</pre>" else plain
  }

  /** Without colour, the reply's lines are the records' rendered lines,
      one each, as long as no rendered line holds a line break. */
  lemma FormatLogsLines(recs: seq<LogRecord>, fmt: Formatter)
    requires recs != []
    requires forall k | 0 <= k < |recs| :: '\n' !in RenderLine(recs[k], false, fmt)
    ensures Split(FormatLogs(recs, false, fmt), '\n') == RenderLines(recs, false, fmt)
  {
    SplitJoin(RenderLines(recs, false, fmt), '\n');
  }

  /** `logs(args)`: a name that resolves to no entry throws; otherwise the
      selected records are shown, or a reply says why none are. Nothing in
      the state changes. */
  function Logs(s: State, args: LogsArgs, re: RegexEngine, fmt: Formatter): (r: Result<LogsReply, Error>)
    ensures r.Failure? <==> Resolve(s.aliases, args.name) !in s.procs
    ensures r.Failure? ==> r.error == NotRunning(args.name)
    ensures r.Success? ==>
              var q := Query(s.procs[Resolve(s.aliases, args.name)].logs, args.lines, args.grep, re);
              && (r.value.InvalidPattern? <==> q.Failure?)
              && (q.Failure? ==> r.value.pattern == q.error)
              && (r.value.NoLogs? <==> q.Success? && q.value == [])
              && (r.value.Streaming? <==> q.Success? && q.value != [] && args.stream)
              && (r.value.Shown? ==>
                    r.value.count == |q.value| >= 1 && r.value.text == FormatLogs(q.value, args.color, fmt))
  {
    var l := Resolve(s.aliases, args.name);
    if l !in s.procs then Failure(NotRunning(args.name))
    else
      match Query(s.procs[l].logs, args.lines, args.grep, re)
      case Failure(pattern) => Success(InvalidPattern(pattern))
      case Success(recs) =>
        if recs == [] then Success(NoLogs)
        else if args.stream then Success(Streaming)
        else Success(Shown(|recs|, FormatLogs(recs, args.color, fmt)))
  }

  /** `project` given and non-empty restricts to the project's labels. */
  predicate Selects(project: Option<string>, l: Label) {
    project.None? || project.value == "" || InProject(l, project.value)
  }

  function SelectedBy(project: Option<string>): Label -> bool {
    l => Selects(project, l)
  }

  /** One line of `status`, as data. */
  datatype StatusRow = StatusRow(
    name: Label,
    aliases: set<string>,
    pid: Pid,
    uptime: Uptime.Uptime,
    autoRestart: bool,
    command: string,
    cwd: string,
    ports: Ports,
    health: Status)

  /** The aliases whose target is exactly the label. */
  function AliasesOf(aliases: map<string, Label>, l: Label): (r: set<string>)
    ensures forall a :: a in r <==> a in aliases && aliases[a] == l
  {
    set a | a in aliases && aliases[a] == l
  }

  /** The aliases `status` lists for a label are the names that resolve to
      it: apart from the label's own spelling, a name is listed exactly when
      looking it up leads to the label. */
  lemma AliasesResolveToLabel(aliases: map<string, Label>, l: Label)
    requires l != ""
    ensures forall a | a in AliasesOf(aliases, l) :: Resolve(aliases, a) == l
    ensures forall a | a in aliases && a != l :: a in AliasesOf(aliases, l) <==> Resolve(aliases, a) == l
  {
  }

  function Row(s: State, l: Label, now: Time): StatusRow
    requires l in s.procs
  {
    var e := s.procs[l];
    StatusRow(l, AliasesOf(s.aliases, l), e.pid, Uptime.FormatUptime(now - e.startedAt),
              e.autoRestart, e.command, e.cwd, e.ports, e.health.status)
  }

  function Names(rows: seq<StatusRow>): (names: seq<Label>)
    ensures |names| == |rows|
    ensures forall k | 0 <= k < |rows| :: names[k] == rows[k].name
  {
    seq(|rows|, k requires 0 <= k < |rows| => rows[k].name)
  }

  /** `status(args)`: one row per entry, in registry order, restricted to
      the project when one is given. */
  function StatusRows(s: State, project: Option<string>, now: Time): (rows: seq<StatusRow>)
    requires forall l | l in s.order :: l in s.procs
    ensures |rows| <= |s.order|
    ensures forall k | 0 <= k < |rows| :: rows[k].name in s.procs && Selects(project, rows[k].name)
                                         && rows[k] == Row(s, rows[k].name, now)
    ensures forall l :: l in Names(rows) <==> l in s.order && Selects(project, l)
    ensures Names(rows) == Filter(s.order, SelectedBy(project))
    decreases |s.order|
  {
    var selected := Filter(s.order, SelectedBy(project));
    var rows := seq(|selected|, k requires 0 <= k < |selected| => Row(s, selected[k], now));
    assert Names(rows) == selected;
    rows
  }

  /** What one `stop` of a group reported for a label. */
  datatype Outcome = Stopped(name: Label) | StopFailed(name: Label, error: Error)

  /** `await this.stop({label})` for each label in turn, collecting the
      outcomes. Each label is resolved through the aliases again. */
  function StopEach(s: State, labels: seq<Label>): (r: (seq<Outcome>, State))
    ensures |r.0| == |labels|
    ensures forall k | 0 <= k < |labels| :: r.0[k].name == labels[k]
    ensures forall k | 0 <= k < |labels| :: r.0[k].Stopped? <==> Resolve(s.aliases, labels[k]) in s.procs
    ensures r.1.procs.Keys == s.procs.Keys && r.1.order == s.order && r.1.aliases == s.aliases
    ensures forall l | l in s.procs :: r.1.procs[l].pid == s.procs[l].pid
    decreases |labels|
  {
    if labels == [] then ([], s)
    else
      match Stop(s, labels[0])
      case Success((l, s1)) =>
        var (rest, s2) := StopEach(s1, labels[1..]);
        ([Stopped(labels[0])] + rest, s2)
      case Failure(e) =>
        var (rest, s2) := StopEach(s, labels[1..]);
        ([StopFailed(labels[0], e)] + rest, s2)
  }

  predicate Disarmed(s: State, l: Label)
    requires l in s.procs
  {
    !s.procs[l].autoRestart && l !in s.checkers
  }

  /** An entry that is already disarmed stays so through a run of stops. */
  lemma {:induction false} StopEachKeepsDisarmed(s: State, labels: seq<Label>)
    ensures var s' := StopEach(s, labels).1;
            forall l | l in s.procs && Disarmed(s, l) :: Disarmed(s', l)
    decreases |labels|
  {
    if labels != [] {
      match Stop(s, labels[0])
      case Success((l, s1)) =>
        StopEachKeepsDisarmed(s1, labels[1..]);
      case Failure(e) =>
        StopEachKeepsDisarmed(s, labels[1..]);
    }
  }

  /** Every label `StopEach` reports stopped ends with neither auto-restart
      nor a health checker, and an entry that was already disarmed stays so. */
  lemma {:induction false} StopEachDisarms(s: State, labels: seq<Label>)
    ensures var (outcomes, s') := StopEach(s, labels);
            && (forall k | 0 <= k < |labels| && outcomes[k].Stopped? :: Disarmed(s', Resolve(s.aliases, labels[k])))
            && (forall l | l in s.procs && Disarmed(s, l) :: Disarmed(s', l))
    decreases |labels|
  {
    StopEachKeepsDisarmed(s, labels);
    if labels != [] {
      var (outcomes, s') := StopEach(s, labels);
      match Stop(s, labels[0])
      case Success((l, s1)) =>
        var (rest, s2) := StopEach(s1, labels[1..]);
        assert outcomes == [Stopped(labels[0])] + rest && s' == s2;
        StopEachDisarms(s1, labels[1..]);
        StopEachKeepsDisarmed(s1, labels[1..]);
        assert Disarmed(s1, l);
      case Failure(e) =>
        var (rest, s2) := StopEach(s, labels[1..]);
        assert outcomes == [StopFailed(labels[0], e)] + rest && s' == s2;
        StopEachDisarms(s, labels[1..]);
    }
  }

  /** When every label is registered under its own name, every stop
      succeeds and leaves its label disarmed. */
  lemma StopEachDisarmsAll(s: State, labels: seq<Label>)
    requires forall l | l in labels :: l in s.procs && Resolve(s.aliases, l) == l
    ensures var (outcomes, s') := StopEach(s, labels);
            && (forall k | 0 <= k < |outcomes| :: outcomes[k].Stopped?)
            && (forall l | l in labels :: l in s'.procs && Disarmed(s', l))
  {
    var (outcomes, s') := StopEach(s, labels);
    StopEachDisarms(s, labels);
    forall l | l in labels
      ensures l in s'.procs && Disarmed(s', l)
    {
      var k :| 0 <= k < |labels| && labels[k] == l;
      assert outcomes[k].Stopped?;
    }
  }

  /** The labels `groupStop` selects: those of `project`. */
  function OfProject(project: string): Label -> bool {
    l => InProject(l, project)
  }

  /** `groupStop({project})`: stop every label of the project, in registry order. */
  function GroupStop(s: State, project: string): (r: (seq<Outcome>, State))
    ensures var selected := Filter(s.order, OfProject(project));
            && |r.0| == |selected|
            && (forall k | 0 <= k < |selected| :: r.0[k].name == selected[k] && InProject(selected[k], project))
    ensures r.1.procs.Keys == s.procs.Keys
  {
    StopEach(s, Filter(s.order, OfProject(project)))
  }

  /** When no alias is spelled like one of the project's labels, `groupStop`
      stops every one of them: all report success and none will restart
      or be probed. The entries themselves are still registered. */
  lemma GroupStopDisarms(s: State, project: string)
    requires forall l :: l in s.procs <==> l in s.order
    requires forall l | l in s.order && InProject(l, project) :: Resolve(s.aliases, l) == l
    ensures var (outcomes, s') := GroupStop(s, project);
            && (forall k | 0 <= k < |outcomes| :: outcomes[k].Stopped?)
            && (forall l | l in s.procs && InProject(l, project) ::
                  l in s'.procs && !s'.procs[l].autoRestart && l !in s'.checkers)
  {
    var selected := Filter(s.order, OfProject(project));
    StopEachDisarmsAll(s, selected);
  }

  /** The labels the outcomes are about, in order. */
  function OutcomeNames(outcomes: seq<Outcome>): (names: seq<Label>)
    ensures |names| == |outcomes|
    ensures forall k | 0 <= k < |outcomes| :: names[k] == outcomes[k].name
  {
    seq(|outcomes|, k requires 0 <= k < |outcomes| => outcomes[k].name)
  }

  /** The labels `down` gives the configured services, in configuration order. */
  function ServiceLabels(projectName: string, services: seq<string>): (labels: seq<Label>)
    ensures |labels| == |services|
    ensures forall i | 0 <= i < |services| :: labels[i] == ServiceLabel(projectName, services[i])
  {
    seq(|services|, i requires 0 <= i < |services| => ServiceLabel(projectName, services[i]))
  }

  /** `procs.has(label)`. */
  function Present(s: State): Label -> bool {
    l => l in s.procs
  }

  /** `proc.cwd === cwd`, over the registered labels. */
  function StartedIn(s: State, cwd: string): Label -> bool {
    l => l in s.procs && s.procs[l].cwd == cwd
  }

  /** `down({cwd})`. With a configuration, each configured service's label
      that is present is stopped, in configuration order; without one, every
      entry started in the directory is, in registry order. `config` is the
      list of configured service labels. */
  function Down(s: State, config: Option<seq<string>>, projectName: string, cwd: string): (r: (seq<Outcome>, State))
    requires forall l :: l in s.order <==> l in s.procs
    ensures config.Some? ==> OutcomeNames(r.0) == Filter(ServiceLabels(projectName, config.value), Present(s))
    ensures config.None? ==> OutcomeNames(r.0) == Filter(s.order, StartedIn(s, cwd))
    ensures config.Some? ==>
              forall k | 0 <= k < |r.0| :: r.0[k].name in s.procs
                && exists i | 0 <= i < |config.value| :: r.0[k].name == ServiceLabel(projectName, config.value[i])
    ensures config.Some? ==>
              forall i | 0 <= i < |config.value| && ServiceLabel(projectName, config.value[i]) in s.procs ::
                ServiceLabel(projectName, config.value[i]) in OutcomeNames(r.0)
    ensures config.None? ==>
              forall k | 0 <= k < |r.0| :: r.0[k].name in s.procs && s.procs[r.0[k].name].cwd == cwd
    ensures config.None? ==>
              forall l | l in s.procs && s.procs[l].cwd == cwd :: l in OutcomeNames(r.0)
    ensures forall k | 0 <= k < |r.0| :: r.0[k].Stopped? <==> Resolve(s.aliases, r.0[k].name) in s.procs
    ensures r.1.procs.Keys == s.procs.Keys
  {
    var labels := match config
      case Some(services) => Filter(ServiceLabels(projectName, services), Present(s))
      case None => Filter(s.order, StartedIn(s, cwd));
    var r := StopEach(s, labels);
    assert OutcomeNames(r.0) == labels;
    if config.Some? then
      ConfiguredSelection(s, projectName, config.value);
      r
    else
      DirectorySelection(s, cwd);
      r
  }

  lemma ConfiguredSelection(s: State, projectName: string, services: seq<string>)
    ensures var labels := Filter(ServiceLabels(projectName, services), Present(s));
            && (forall k | 0 <= k < |labels| :: labels[k] in s.procs
                  && exists i | 0 <= i < |services| :: labels[k] == ServiceLabel(projectName, services[i]))
            && (forall i | 0 <= i < |services| && ServiceLabel(projectName, services[i]) in s.procs ::
                  ServiceLabel(projectName, services[i]) in labels)
  {
    var all := ServiceLabels(projectName, services);
    var labels := Filter(all, Present(s));
    forall k | 0 <= k < |labels|
      ensures labels[k] in s.procs && exists i | 0 <= i < |services| :: labels[k] == ServiceLabel(projectName, services[i])
    {
      assert labels[k] in all;
      var i :| 0 <= i < |all| && all[i] == labels[k];
    }
    forall i | 0 <= i < |services| && ServiceLabel(projectName, services[i]) in s.procs
      ensures ServiceLabel(projectName, services[i]) in labels
    {
      assert Present(s)(all[i]);
    }
  }

  lemma DirectorySelection(s: State, cwd: string)
    requires forall l :: l in s.order <==> l in s.procs
    ensures var labels := Filter(s.order, StartedIn(s, cwd));
            && (forall k | 0 <= k < |labels| :: labels[k] in s.procs && s.procs[labels[k]].cwd == cwd)
            && (forall l | l in s.procs && s.procs[l].cwd == cwd :: l in labels)
  {
    var labels := Filter(s.order, StartedIn(s, cwd));
    forall l | l in s.procs && s.procs[l].cwd == cwd
      ensures l in labels
    {
      var i :| 0 <= i < |s.order| && s.order[i] == l;
      assert StartedIn(s, cwd)(s.order[i]);
    }
  }

  /** When no alias is spelled like a registered label, `down` stops every
      label it selects: each outcome is a success, and each selected entry
      ends without auto-restart or checker, still registered. */
  lemma DownDisarms(s: State, config: Option<seq<string>>, projectName: string, cwd: string)
    requires forall l :: l in s.order <==> l in s.procs
    requires forall l | l in s.procs :: Resolve(s.aliases, l) == l
    ensures var (outcomes, s') := Down(s, config, projectName, cwd);
            && (forall k | 0 <= k < |outcomes| :: outcomes[k].Stopped?)
            && (config.Some? ==>
                  forall i | 0 <= i < |config.value| && ServiceLabel(projectName, config.value[i]) in s.procs ::
                    Disarmed(s', ServiceLabel(projectName, config.value[i])))
            && (config.None? ==> forall l | l in s.procs && s.procs[l].cwd == cwd :: Disarmed(s', l))
  {
    var labels := match config
      case Some(services) => Filter(ServiceLabels(projectName, services), Present(s))
      case None => Filter(s.order, StartedIn(s, cwd));
    var (outcomes, s') := Down(s, config, projectName, cwd);
    assert (outcomes, s') == StopEach(s, labels);
    StopEachDisarmsAll(s, labels);
    if config.Some? {
      forall i | 0 <= i < |config.value| && ServiceLabel(projectName, config.value[i]) in s.procs
        ensures Disarmed(s', ServiceLabel(projectName, config.value[i]))
      {
        assert ServiceLabel(projectName, config.value[i]) in OutcomeNames(outcomes);
      }
    } else {
      forall l | l in s.procs && s.procs[l].cwd == cwd
        ensures Disarmed(s', l)
      {
        assert l in OutcomeNames(outcomes);
      }
    }
  }
}

=== FILE: hazards.dfy ===
/** Consequences of the supervisor's timers that the handlers do not guard
    against: each lemma starts from any state satisfying the registry
    invariant and follows the events that expose the behaviour. */
module Hazards {
  import opened Wrappers
  import opened LogStore
  import opened Health
  import opened Registry
  import opened Supervisor
  import opened Lifecycle

  /** A child crashes, the user stops its label during the 3-second
      delay, and the delayed relaunch still runs: the guard only asks
      whether the label is present, and `stop` leaves it present. The new
      entry restarts automatically again, because it is built from the
      original launch. */
  lemma StopDuringRelaunchDelay(s: State, pid: Pid, code: int, t1: Time, t2: Time)
    requires Inv(s) && pid in s.live
    requires var l := s.launches[pid].name;
             l in s.procs && s.procs[l].pid == pid && s.procs[l].autoRestart && l !in s.aliases
    requires code != 0
    ensures var l := s.launches[pid].name;
            var exited := OnExit(s, pid, Some(code), None, t1);
            && Relaunch(s.launches[pid]) in exited.timers
            && Stop(exited, l).Success?
            && var stopped := Stop(exited, l).value.1;
               && Relaunch(s.launches[pid]) in stopped.timers
               && var relaunched := OnTimer(stopped, Relaunch(s.launches[pid]), t2);
                  && l in relaunched.procs
                  && relaunched.procs[l].autoRestart
                  && relaunched.procs[l].pid in relaunched.live
  {
    var l := s.launches[pid].name;
    assert Describes(s, l);
    var exited := OnExit(s, pid, Some(code), None, t1);
    assert RelaunchWanted(s, l, Some(code), None);
    ExitInv(s, pid, Some(code), None, t1);
  }

  /** Output the exited child's pipes deliver during the 3-second relaunch
      delay still lands in the visible buffer: the entry keeps the old pid
      until the relaunch replaces it, so the child still owns it. */
  lemma LateOutputDuringRelaunchDelay(s: State, pid: Pid, code: int, chunk: string, t1: Time, t2: Time)
    requires Inv(s) && !s.crashed && pid in s.live
    requires var l := s.launches[pid].name;
             l in s.procs && s.procs[l].pid == pid && s.procs[l].autoRestart
    requires code != 0
    ensures var l := s.launches[pid].name;
            var exited := OnExit(s, pid, Some(code), None, t1);
            && pid !in exited.live
            && Enabled(exited, OutputStep(pid, chunk, t2))
            && l in exited.procs
            && Next(exited, OutputStep(pid, chunk, t2)).procs[l].logs
               == Capture(exited.procs[l].logs, chunk, t2, pid)
  {
    var l := s.launches[pid].name;
    assert Describes(s, l);
    var exited := OnExit(s, pid, Some(code), None, t1);
    assert RelaunchWanted(s, l, Some(code), None);
    ExitInv(s, pid, Some(code), None, t1);
    assert Owns(exited, pid);
  }

  /** The forced kill of a stopped child removes whatever entry holds the
      label when it fires. If the label has been started again in the
      meantime, the new child keeps running with no entry. */
  lemma ForceKillOrphansSuccessor(s: State, l: Label, oldPid: Pid, now: Time)
    requires Inv(s) && ForceKill(l, oldPid) in s.timers
    requires l in s.procs && s.procs[l].pid != oldPid && s.procs[l].pid in s.live
    ensures var s' := OnTimer(s, ForceKill(l, oldPid), now);
            && l !in s'.procs
            && s.procs[l].pid in s'.live
            && (forall x | x in s'.procs :: s'.procs[x].pid != s.procs[l].pid)
  {
    var s' := OnTimer(s, ForceKill(l, oldPid), now);
    DeleteInv(s.(timers := s.timers - multiset{ForceKill(l, oldPid)}), l);
    forall x | x in s'.procs
      ensures s'.procs[x].pid != s.procs[l].pid
    {
      assert Describes(s, x) && Describes(s, l);
    }
  }

  /** A late exit of a replaced child acts on the entry that replaced it:
      when the old child was killed, the newer entry is removed and its
      health checker cleared. */
  lemma StaleExitRemovesSuccessor(s: State, oldPid: Pid, code: Option<int>, now: Time)
    requires Inv(s) && oldPid in s.live
    requires var l := s.launches[oldPid].name;
             l in s.procs && s.procs[l].pid != oldPid && s.procs[l].pid in s.live
    ensures var l := s.launches[oldPid].name;
            var s' := OnExit(s, oldPid, code, Some("SIGKILL"), now);
            l !in s'.procs && l !in s'.checkers && s.procs[l].pid in s'.live
  {
  }

  /** `stop` clears the interval but not the one-shot first probe: the
      probe still runs afterwards and still writes the stopped entry's
      health. */
  lemma FirstProbeOutlivesStop(s: State, p: Probe, message: string, now: Time)
    requires Inv(s) && FirstProbe(p) in s.timers
    requires p.name in s.procs && p.name !in s.aliases
    ensures Stop(s, p.name).Success?
    ensures var stopped := Stop(s, p.name).value.1;
            && p.name !in stopped.checkers
            && FirstProbe(p) in stopped.timers
            && var probing := OnTimer(stopped, FirstProbe(p), now);
               && p in probing.inflight
               && var done := OnProbeDone(probing, p, Threw(message), now);
                  && p.name in done.procs
                  && done.procs[p.name].health == Health(Unhealthy, Some(now), Some(message))
  {
  }

  /** A second health checker for a label replaces the first in the map
      without clearing it: the old interval keeps firing and no checker
      refers to it any more, so `stopHealthCheck` can never clear it. */
  lemma CheckerReplacedNotCleared(s: State, l: Label, port: int)
    requires Inv(s) && l in s.checkers && port != 0
    ensures var s' := StartHealthCheck(s, l, port);
            && s.checkers[l] in s'.intervals
            && (forall x | x in s'.checkers :: s'.checkers[x] != s.checkers[l])
  {
    var s' := StartHealthCheck(s, l, port);
    forall x | x in s'.checkers
      ensures s'.checkers[x] != s.checkers[l]
    {
      if x != l {
        assert s.intervals[s.checkers[x]].name == x;
      }
    }
  }

  /** The delayed start of `restart` throws when the stopped child has not
      exited within the second it waits: the label is still registered.
      Nothing catches the rejection, so the server process ends; the
      registry is left as it was and no further step can happen. */
  lemma RestartSettleWhileRegistered(s: State, args: StartArgs, now: Time, step: Step)
    requires Inv(s) && RestartSettle(args) in s.timers && args.name in s.procs
    ensures var s' := OnTimer(s, RestartSettle(args), now);
            && s' == s.(timers := s.timers - multiset{RestartSettle(args)}, crashed := true)
            && !Enabled(s', step)
  {
  }

  /** The `error` record is pushed without eviction, so a full buffer grows
      past its bound. */
  lemma SpawnErrorOverflows(s: State, pid: Pid, message: string, now: Time)
    requires Inv(s) && pid in s.live && Owns(s, pid)
    requires |s.procs[s.launches[pid].name].logs| == BufferSize
    ensures |OnSpawnError(s, pid, message, now).procs[s.launches[pid].name].logs| == BufferSize + 1
  {
  }
}

=== FILE: health.dfy ===
/** The health monitor's update of an entry (server.mjs:140-170): each
    probe result overwrites the health snapshot, and a failure status also
    appends a warning to the log without evicting anything. */
module Health {
  import opened Wrappers
  import opened Strings
  import opened LogStore

  datatype Status = Starting | Healthy | Unhealthy

  /** `{status, lastCheck, error?}`. */
  datatype Health = Health(status: Status, lastCheck: Option<Time>, error: Option<string>)

  /** The snapshot of a freshly spawned entry: `{status: 'starting'}`. */
  const Initial: Health := Health(Starting, None, None)

  /** How one `fetch` of the health URL ended: an HTTP status, or the
      message of the error it threw. */
  datatype ProbeResult = Responded(httpStatus: int) | Threw(message: string)

  /** `response.ok`: a status in the range 200-299. */
  predicate IsOk(httpStatus: int) {
    200 <= httpStatus <= 299
  }

  const WarningPrefix: string := "⚠️ ヘルスチェック失敗: "

  function WarningRecord(now: Time, httpStatus: int): LogRecord {
    LogRecord(now, WarningPrefix + IntToString(httpStatus), None, HealthWarning(httpStatus))
  }

  /** The new health snapshot and log of an entry after one probe result. */
  function ProbeUpdate(logs: seq<LogRecord>, result: ProbeResult, now: Time): (r: (Health, seq<LogRecord>))
    ensures r.0.lastCheck == Some(now)
    ensures r.0.status == Healthy <==> result.Responded? && IsOk(result.httpStatus)
    ensures r.0.status != Starting
    ensures r.0.error == (if result.Threw? then Some(result.message) else None)
    ensures result.Responded? && !IsOk(result.httpStatus) ==>
              r.1 == logs + [WarningRecord(now, result.httpStatus)]
    ensures !(result.Responded? && !IsOk(result.httpStatus)) ==> r.1 == logs
    ensures |r.1| <= |logs| + 1
  {
    match result
    case Responded(code) =>
      var healthy := IsOk(code);
      var h := Health(if healthy then Healthy else Unhealthy, Some(now), None);
      if healthy then (h, logs) else (h, logs + [WarningRecord(now, code)])
    case Threw(message) =>
      (Health(Unhealthy, Some(now), Some(message)), logs)
  }

  /** The health warning is appended without eviction, so a buffer that is
      already full grows past `BufferSize`. */
  lemma WarningOverflows(logs: seq<LogRecord>, httpStatus: int, now: Time)
    requires |logs| == BufferSize && !IsOk(httpStatus)
    ensures |ProbeUpdate(logs, Responded(httpStatus), now).1| == BufferSize + 1
  {
  }
}

=== FILE: lifecycle.dfy ===
/** The supervisor as a transition system: every command and event is a
    step, and the registry invariant holds in every reachable state. */
module Lifecycle {
  import opened Wrappers
  import opened LogStore
  import opened Health
  import opened Registry
  import opened Supervisor

  datatype Step =
    | StartStep(args: StartArgs, now: Time)
    | StopStep(name: string)
    | RestartStep(args: StartArgs, now: Time)
    | AliasStep(alias: string, target: Label)        // one `aliases.set` of `loadConfig`
    | OutputStep(pid: Pid, chunk: string, now: Time)
    | ErrorStep(pid: Pid, message: string, now: Time)
    | ExitStep(pid: Pid, code: Option<int>, signal: Option<string>, now: Time)
    | TimerStep(timer: Timer, now: Time)
    | TickStep(id: nat)
    | ProbeStep(probe: Probe, result: ProbeResult, now: Time)

  /** Nothing happens once the server process has ended; otherwise events
      only come from what exists: a launched child (whose pipes may still
      deliver output after it exited), a live child's exit, a pending timer,
      a running interval, a probe in flight. */
  predicate Enabled(s: State, step: Step) {
    !s.crashed &&
    match step
    case OutputStep(pid, _, _) => pid in s.launches
    case ErrorStep(pid, _, _) => pid in s.launches
    case ExitStep(pid, _, _, _) => pid in s.live && s.live <= s.launches.Keys
    case TimerStep(t, _) => t in s.timers
    case TickStep(id) => id in s.intervals
    case ProbeStep(p, _, _) => p in s.inflight
    case _ => true
  }

  ghost predicate IntervalsFresh(s: State) {
    forall i | i in s.intervals :: i < s.nextInterval
  }

  /** The state after one step; a command that throws changes nothing. */
  function Next(s: State, step: Step): State
    requires Enabled(s, step) && IntervalsFresh(s)
  {
    match step
    case StartStep(args, now) =>
      (match Start(s, args, now) case Success((_, s')) => s' case Failure(_) => s)
    case StopStep(name) =>
      (match Stop(s, name) case Success((_, s')) => s' case Failure(_) => s)
    case RestartStep(args, now) =>
      (match Restart(s, args, now)
       case Success(Scheduled(s')) => s'
       case Success(Started(_, s')) => s'
       case Failure(_) => s)
    case AliasStep(a, t) => s.(aliases := s.aliases[a := t])
    case OutputStep(pid, chunk, now) => OnOutput(s, pid, chunk, now)
    case ErrorStep(pid, message, now) => OnSpawnError(s, pid, message, now)
    case ExitStep(pid, code, signal, now) => OnExit(s, pid, code, signal, now)
    case TimerStep(t, now) => OnTimer(s, t, now)
    case TickStep(id) => OnTick(s, id)
    case ProbeStep(p, result, now) => OnProbeDone(s, p, result, now)
  }

  /** An entry describes the launch of its own child, and it restarts
      automatically only if that launch asked for it. */
  ghost predicate Describes(s: State, l: Label)
    requires l in s.procs
  {
    var e := s.procs[l];
    && e.pid in s.launches
    && var launch := s.launches[e.pid];
       && launch.name == l && launch.cwd == e.cwd && launch.command == e.command && launch.ports == e.ports
       && (e.autoRestart ==> launch.autoRestart)
  }

  /** The registry invariant: the iteration order lists every label once,
      each entry describes the launch of its own child, pids and interval
      ids are fresh, and a label's health checker probes for that label. */
  ghost predicate Inv(s: State) {
    && (forall l :: l in s.procs <==> l in s.order)
    && NoDup(s.order)
    && (forall l | l in s.procs :: Describes(s, l))
    && (forall p | p in s.launches :: p < s.nextPid)
    && s.live <= s.launches.Keys
    && (forall l | l in s.checkers :: s.checkers[l] in s.intervals && s.intervals[s.checkers[l]].name == l)
    && IntervalsFresh(s)
  }

  lemma InitInv(workDir: string, aliases: map<string, Label>)
    ensures Inv(Init(workDir, aliases))
  {
  }

  lemma StartHealthCheckInv(s: State, l: Label, port: int)
    requires Inv(s)
    ensures Inv(StartHealthCheck(s, l, port))
  {
    var s' := StartHealthCheck(s, l, port);
    forall x | x in s'.procs
      ensures Describes(s', x)
    {
      assert Describes(s, x);
    }
  }

  /** The spawn half of `startProcess`, before any health checker. */
  lemma SpawnInv(s: State, launch: Launch, now: Time)
    requires Inv(s) && launch.name !in s.procs
    ensures var s1 := SetEntry(s, launch.name, FreshEntry(launch, s.nextPid, now));
            Inv(s1.(launches := s1.launches[s.nextPid := launch], live := s1.live + {s.nextPid}, nextPid := s.nextPid + 1))
  {
    var pid := s.nextPid;
    var s1 := SetEntry(s, launch.name, FreshEntry(launch, pid, now));
    var s2 := s1.(launches := s1.launches[pid := launch], live := s1.live + {pid}, nextPid := pid + 1);
    NoDupSnoc(s.order, launch.name);
    forall l | l in s2.procs
      ensures Describes(s2, l)
    {
      if l != launch.name {
        assert Describes(s, l);
      }
    }
  }

  lemma StartProcessInv(s: State, launch: Launch, now: Time)
    requires Inv(s) && launch.name !in s.procs
    ensures Inv(StartProcess(s, launch, now).1)
  {
    var pid := s.nextPid;
    var s1 := SetEntry(s, launch.name, FreshEntry(launch, pid, now));
    var s2 := s1.(launches := s1.launches[pid := launch], live := s1.live + {pid}, nextPid := pid + 1);
    SpawnInv(s, launch, now);
    match MonitoredPort(launch.ports, launch.healthEndpoint)
    case None =>
      assert StartProcess(s, launch, now).1 == s2;
    case Some(port) =>
      StartHealthCheckInv(s2, launch.name, port);
      assert StartProcess(s, launch, now).1 == StartHealthCheck(s2, launch.name, port);
  }

  lemma StartInv(s: State, args: StartArgs, now: Time)
    requires Inv(s)
    ensures Start(s, args, now).Success? ==> Inv(Start(s, args, now).value.1)
  {
    if Start(s, args, now).Success? {
      StartProcessInv(s, LaunchOf(s, args), now);
    }
  }

  lemma StopInv(s: State, name: string)
    requires Inv(s)
    ensures Stop(s, name).Success? ==> Inv(Stop(s, name).value.1)
  {
    if Stop(s, name).Success? {
      var (l, s') := Stop(s, name).value;
      forall x | x in s'.procs
        ensures Describes(s', x)
      {
        assert Describes(s, x);
      }
    }
  }

  lemma FieldsInv(s: State, s': State)
    requires Inv(s)
    requires s'.procs == s.procs && s'.order == s.order && s'.launches == s.launches
    requires s'.nextPid == s.nextPid && s'.live <= s.live
    requires s'.checkers == s.checkers && s'.intervals == s.intervals && s'.nextInterval == s.nextInterval
    ensures Inv(s')
  {
    forall x | x in s'.procs
      ensures Describes(s', x)
    {
      assert Describes(s, x);
    }
  }

  lemma StopHealthCheckInv(s: State, l: Label)
    requires Inv(s)
    ensures Inv(StopHealthCheck(s, l))
  {
    var s' := StopHealthCheck(s, l);
    forall x | x in s'.procs
      ensures Describes(s', x)
    {
      assert Describes(s, x);
    }
    if l in s.checkers {
      forall x | x in s'.checkers
        ensures s'.checkers[x] in s'.intervals
      {
        assert x != l && s.intervals[s.checkers[x]].name == x && s.intervals[s.checkers[l]].name == l;
      }
    }
  }

  lemma DeleteInv(s: State, l: Label)
    requires Inv(s)
    ensures Inv(DeleteEntry(s, l))
  {
    var s' := DeleteEntry(s, l);
    forall x | x in s'.procs
      ensures Describes(s', x)
    {
      assert Describes(s, x);
    }
  }

  lemma ExitInv(s: State, pid: Pid, code: Option<int>, signal: Option<string>, now: Time)
    requires Inv(s) && pid in s.live
    ensures Inv(OnExit(s, pid, code, signal, now))
  {
    var l := s.launches[pid].name;
    var s1 := UpdateLogs(s, pid, AppendExit(pid, code, signal, now));
    LogsInv(s, s1);
    var s2 := StopHealthCheck(s1, l);
    StopHealthCheckInv(s1, l);
    if RelaunchWanted(s2, l, code, signal) {
      RelaunchQueuedInv(s2, s.launches[pid], pid);
    } else {
      ExitDeletedInv(s2, l, pid);
    }
  }

  /** The exit branch that queues a relaunch. */
  lemma RelaunchQueuedInv(s: State, launch: Launch, pid: Pid)
    requires Inv(s)
    ensures Inv(s.(timers := s.timers + multiset{Relaunch(launch)}, live := s.live - {pid}))
  {
    FieldsInv(s, s.(timers := s.timers + multiset{Relaunch(launch)}, live := s.live - {pid}));
  }

  /** The exit branch that removes the entry. */
  lemma ExitDeletedInv(s: State, l: Label, pid: Pid)
    requires Inv(s)
    ensures var s3 := DeleteEntry(s, l); Inv(s3.(live := s3.live - {pid}))
  {
    var s3 := DeleteEntry(s, l);
    DeleteInv(s, l);
    FieldsInv(s3, s3.(live := s3.live - {pid}));
  }

  lemma TimerInv(s: State, t: Timer, now: Time)
    requires Inv(s) && t in s.timers
    ensures Inv(OnTimer(s, t, now))
  {
    var s1 := s.(timers := s.timers - multiset{t});
    match t
    case Relaunch(launch) =>
      if launch.name in s1.procs {
        FieldsInv(s, s1);
        DeleteInv(s1, launch.name);
        StartProcessInv(DeleteEntry(s1, launch.name), launch, now);
      }
    case ForceKill(l, _) =>
      FieldsInv(s, s1);
      DeleteInv(s1, l);
    case FirstProbe(p) =>
      FieldsInv(s, OnTimer(s, t, now));
    case RestartSettle(args) =>
      FieldsInv(s, s1);
      StartInv(s1, args, now);
  }

  lemma LogsInv(s: State, s': State)
    requires Inv(s)
    requires s'.procs.Keys == s.procs.Keys
    requires forall l | l in s.procs :: s'.procs[l] == s.procs[l].(logs := s'.procs[l].logs, health := s'.procs[l].health)
    requires s' == s.(procs := s'.procs, inflight := s'.inflight)
    ensures Inv(s')
  {
    forall x | x in s'.procs
      ensures Describes(s', x)
    {
      assert Describes(s, x);
    }
  }

  lemma RestartInv(s: State, args: StartArgs, now: Time)
    requires Inv(s)
    ensures Restart(s, args, now).Success? ==> Inv(Restart(s, args, now).value.next)
  {
    StopInv(s, args.name);
    StartInv(s, args, now);
    if Stop(s, args.name).Success? {
      var stopped := Stop(s, args.name).value.1;
      FieldsInv(stopped, Restart(s, args, now).value.next);
    }
  }

  lemma CommandInv(s: State, step: Step)
    requires Inv(s) && Enabled(s, step)
    requires step.StartStep? || step.StopStep? || step.RestartStep?
    ensures Inv(Next(s, step))
  {
    match step
    case StartStep(args, now) => StartInv(s, args, now);
    case StopStep(name) => StopInv(s, name);
    case RestartStep(args, now) => RestartInv(s, args, now);
  }

  lemma OutputStepInv(s: State, step: Step)
    requires Inv(s) && Enabled(s, step) && step.OutputStep?
    ensures Inv(Next(s, step))
  {
    LogsInv(s, OnOutput(s, step.pid, step.chunk, step.now));
  }

  lemma ErrorStepInv(s: State, step: Step)
    requires Inv(s) && Enabled(s, step) && step.ErrorStep?
    ensures Inv(Next(s, step))
  {
    LogsInv(s, OnSpawnError(s, step.pid, step.message, step.now));
  }

  lemma TickStepInv(s: State, step: Step)
    requires Inv(s) && Enabled(s, step) && step.TickStep?
    ensures Inv(Next(s, step))
  {
    FieldsInv(s, OnTick(s, step.id));
  }

  lemma ProbeStepInv(s: State, step: Step)
    requires Inv(s) && Enabled(s, step) && step.ProbeStep?
    ensures Inv(Next(s, step))
  {
    LogsInv(s, OnProbeDone(s, step.probe, step.result, step.now));
  }

  lemma AliasStepInv(s: State, step: Step)
    requires Inv(s) && Enabled(s, step) && step.AliasStep?
    ensures Inv(Next(s, step))
  {
    FieldsInv(s, Next(s, step));
  }

  /** Every step keeps the registry invariant. */
  lemma NextInv(s: State, step: Step)
    requires Inv(s) && Enabled(s, step)
    ensures Inv(Next(s, step))
  {
    match step
    case StartStep(_, _) => CommandInv(s, step);
    case StopStep(_) => CommandInv(s, step);
    case RestartStep(_, _) => CommandInv(s, step);
    case AliasStep(_, _) => AliasStepInv(s, step);
    case OutputStep(_, _, _) => OutputStepInv(s, step);
    case ErrorStep(_, _, _) => ErrorStepInv(s, step);
    case ExitStep(pid, code, signal, now) => ExitInv(s, pid, code, signal, now);
    case TimerStep(t, now) => TimerInv(s, t, now);
    case TickStep(_) => TickStepInv(s, step);
    case ProbeStep(_, _, _) => ProbeStepInv(s, step);
  }

  /** An interval's tick sends exactly one probe, for the label whose
      checker owns the interval, and changes nothing else. */
  lemma TickProbesItsLabel(s: State, l: Label)
    requires Inv(s) && l in s.checkers
    ensures s.checkers[l] in s.intervals
    ensures var s' := OnTick(s, s.checkers[l]);
            && |s'.inflight| == |s.inflight| + 1
            && (forall p | p in s'.inflight - s.inflight :: p.name == l)
            && s' == s.(inflight := s'.inflight)
  {
    var s' := OnTick(s, s.checkers[l]);
    assert s'.inflight - s.inflight == multiset{s.intervals[s.checkers[l]]};
  }

  /** In a state satisfying the invariant each entry's child writes to
      the buffer the entry shows, and no two entries share a child. */
  lemma EntriesOwnTheirChildren(s: State, l: Label, m: Label)
    requires Inv(s) && l in s.procs && m in s.procs
    ensures Owns(s, s.procs[l].pid)
    ensures l != m ==> s.procs[l].pid != s.procs[m].pid
  {
    assert Describes(s, l) && Describes(s, m);
  }

  /** The state after a sequence of steps, if every step is enabled:
      every state reachable from one satisfying the invariant satisfies it. */
  function Run(s: State, steps: seq<Step>): (r: Option<State>)
    requires Inv(s)
    ensures r.Some? ==> Inv(r.value)
    ensures steps == [] ==> r == Some(s)
    decreases |steps|
  {
    if steps == [] then Some(s)
    else if !Enabled(s, steps[0]) then None
    else
      NextInv(s, steps[0]);
      Run(Next(s, steps[0]), steps[1..])
  }
}

=== FILE: logstore.dfy ===
/** The in-memory log buffer of one process: `captureOutput`
    (server.mjs:625-644), the non-evicting pushes of the error, exit and
    health handlers, and the `slice` and `grep` of the `logs` command
    (server.mjs:836-851). */
module LogStore {
  import opened Wrappers
  import opened Strings

  /** Milliseconds since the epoch; the source's ISO timestamps carry the same instant. */
  type Time = int

  /** Identity of a spawned child. */
  type Pid = nat

  /** `BUFFER_SIZE`. */
  const BufferSize: nat := 10000

  /** What appended a record. */
  datatype Origin =
    | Output                                            // a line of stdout or stderr
    | SpawnError                                        // the child's `error` event
    | Exited(code: Option<int>, signal: Option<string>) // the child's `exit` event
    | HealthWarning(httpStatus: int)                    // a probe answered with a failure status

  /** A log record; `pid` is absent on health warnings, which the source
      pushes as `{time, line}` only. */
  datatype LogRecord = LogRecord(time: Time, line: string, pid: Option<Pid>, origin: Origin)

  /** `s.filter(keep)`: the elements that satisfy `keep`, in their order. */
  function Filter<T(!new)>(s: seq<T>, keep: T -> bool): (r: seq<T>)
    ensures |r| <= |s|
    ensures forall k | 0 <= k < |r| :: r[k] in s && keep(r[k])
    ensures forall k | 0 <= k < |s| :: keep(s[k]) ==> s[k] in r
    ensures multiset(r) <= multiset(s)
    ensures forall x :: multiset(r)[x] == if keep(x) then multiset(s)[x] else 0
  {
    if s == [] then []
    else
      assert s == [s[0]] + s[1..];
      if keep(s[0]) then [s[0]] + Filter(s[1..], keep) else Filter(s[1..], keep)
  }

  /** Filtering keeps the relative order: it distributes over concatenation. */
  lemma {:induction false} FilterAppend<T(!new)>(a: seq<T>, b: seq<T>, keep: T -> bool)
    ensures Filter(a + b, keep) == Filter(a, keep) + Filter(b, keep)
    decreases |a|
  {
    if a == [] {
      assert a + b == b;
    } else {
      assert (a + b)[0] == a[0] && (a + b)[1..] == a[1..] + b;
      FilterAppend(a[1..], b, keep);
    }
  }

  predicate NotBlank(line: string) {
    !IsBlank(line)
  }

  /** `data.toString().split('\n').filter(l => l.trim())`: the lines of a
      chunk that are kept, untrimmed. */
  function KeptLines(chunk: string): (lines: seq<string>)
    ensures forall k | 0 <= k < |lines| :: '\n' !in lines[k] && !IsBlank(lines[k])
    ensures forall l :: l in lines <==> l in Split(chunk, '\n') && !IsBlank(l)
    ensures forall l :: multiset(lines)[l] == if IsBlank(l) then 0 else multiset(Split(chunk, '\n'))[l]
  {
    Filter(Split(chunk, '\n'), NotBlank)
  }

  /** Lines keep the order of the stream: when the first of two chunks ends
      with a line break, the kept lines of both together are those of the
      first followed by those of the second. */
  lemma KeptLinesConcat(a: string, b: string)
    requires |a| >= 1 && a[|a| - 1] == '\n'
    ensures KeptLines(a + b) == KeptLines(a) + KeptLines(b)
  {
    var pa, pb := Split(a, '\n'), Split(b, '\n');
    SplitAfterSep(a, b, '\n');
    var p := pa[..|pa| - 1];
    assert pa == p + [[]];
    assert Split(a + b, '\n') == p + pb;
    assert !NotBlank([]);
    FilterDropsTail(p, pb, [], NotBlank);
  }

  lemma FilterDropsOne<T(!new)>(x: T, keep: T -> bool)
    requires !keep(x)
    ensures Filter([x], keep) == []
  {
    assert [x][1..] == [];
  }

  lemma FilterDropsTail<T(!new)>(p: seq<T>, q: seq<T>, x: T, keep: T -> bool)
    requires !keep(x)
    ensures Filter(p + q, keep) == Filter(p + [x], keep) + Filter(q, keep)
  {
    FilterAppend(p, q, keep);
    FilterAppend(p, [x], keep);
    FilterDropsOne(x, keep);
    assert Filter(p, keep) + [] == Filter(p, keep);
  }

  /** The records `captureOutput` builds for the kept lines of one chunk. */
  function OutputRecords(lines: seq<string>, time: Time, pid: Pid): (recs: seq<LogRecord>)
    ensures |recs| == |lines|
    ensures forall k | 0 <= k < |recs| :: recs[k] == LogRecord(time, lines[k], Some(pid), Output)
  {
    seq(|lines|, k requires 0 <= k < |lines| => LogRecord(time, lines[k], Some(pid), Output))
  }

  /** The newest `n` records of `s` (all of them when there are fewer). */
  function Newest(s: seq<LogRecord>, n: nat): (r: seq<LogRecord>)
    ensures |r| == if |s| <= n then |s| else n
    ensures s == s[..|s| - |r|] + r
  {
    if |s| <= n then s else s[|s| - n..]
  }

  /** One `logs.push(entry)` followed by the `splice` that evicts from the front. */
  function PushEvict(buf: seq<LogRecord>, rec: LogRecord): seq<LogRecord> {
    var b := buf + [rec];
    if |b| > BufferSize then b[|b| - BufferSize..] else b
  }

  /** `lines.forEach(...)`: push and evict, line by line. */
  function PushAll(buf: seq<LogRecord>, recs: seq<LogRecord>): seq<LogRecord>
    decreases |recs|
  {
    if recs == [] then buf else PushAll(PushEvict(buf, recs[0]), recs[1..])
  }

  lemma NewestOfNewest(a: seq<LogRecord>, b: seq<LogRecord>, n: nat)
    ensures Newest(Newest(a, n) + b, n) == Newest(a + b, n)
  {
    if |a| > n && b != [] {
      var y := a + b;
      var x := Newest(a, n) + b;
      assert x == y[|a| - n..];
      var m := |a| - n;
      assert |x| > n;
      assert Newest(x, n) == x[|x| - n..];
      assert y[m..][|x| - n..] == y[m + |x| - n..];
      assert m + |x| - n == |y| - n;
    } else if |a| > n {
      assert a + b == a && Newest(a, n) + b == Newest(a, n);
    }
  }

  lemma PushEvictIsNewest(buf: seq<LogRecord>, rec: LogRecord)
    ensures PushEvict(buf, rec) == Newest(buf + [rec], BufferSize)
  {
  }

  /** Pushing records one by one with eviction keeps exactly the newest
      `BufferSize` records of the old buffer followed by the new ones. */
  lemma {:induction false} PushAllKeepsNewest(buf: seq<LogRecord>, recs: seq<LogRecord>)
    requires recs != []
    ensures PushAll(buf, recs) == Newest(buf + recs, BufferSize)
    decreases |recs|
  {
    var c, t := buf + [recs[0]], recs[1..];
    var b := PushEvict(buf, recs[0]);
    PushEvictIsNewest(buf, recs[0]);
    ConsSplit(buf, recs);
    if t != [] {
      PushAllKeepsNewest(b, t);
      NewestOfNewest(c, t, BufferSize);
    }
  }

  lemma ConsSplit<T>(a: seq<T>, s: seq<T>)
    requires s != []
    ensures a + [s[0]] + s[1..] == a + s
  {
    assert [s[0]] + s[1..] == s;
  }

  /** `captureOutput(data)` on a buffer: a chunk with no kept line changes
      nothing; otherwise the buffer becomes the newest `BufferSize` records
      of the old buffer followed by one record per kept line. */
  function Capture(buf: seq<LogRecord>, chunk: string, time: Time, pid: Pid): (buf': seq<LogRecord>)
    ensures KeptLines(chunk) == [] ==> buf' == buf
    ensures KeptLines(chunk) != [] ==>
              buf' == Newest(buf + OutputRecords(KeptLines(chunk), time, pid), BufferSize)
    ensures KeptLines(chunk) != [] ==> |buf'| <= BufferSize
  {
    var recs := OutputRecords(KeptLines(chunk), time, pid);
    if recs != [] then PushAllKeepsNewest(buf, recs); PushAll(buf, recs)
    else PushAll(buf, recs)
  }

  /** `logs.slice(-lines)`: for a positive count the newest `lines` records;
      `slice(-0)` is `slice(0)`, the whole buffer; a negative count drops
      that many of the oldest records. */
  function Recent(buf: seq<LogRecord>, lines: int): (r: seq<LogRecord>)
    ensures lines >= 1 ==> r == Newest(buf, lines)
    ensures lines <= 0 && -lines <= |buf| ==> r == buf[-lines..]
    ensures lines <= 0 && -lines > |buf| ==> r == []
  {
    var k := -lines;
    var start := if k < 0 then (if |buf| + k < 0 then 0 else |buf| + k)
                 else (if k < |buf| then k else |buf|);
    buf[start..]
  }

  /** The regular-expression engine behind `new RegExp(grep, 'i')`:
      whether a pattern compiles, and whether a compiled pattern matches a
      line. */
  datatype RegexEngine = RegexEngine(compiles: string -> bool, test: (string, string) -> bool)

  /** The `lines` default of the `logs` command. */
  const DefaultLines: int := 200

  /** The records the `logs` command shows: the `slice` of the buffer,
      filtered by the pattern when one is given. A pattern that does not
      compile yields its text as the error. */
  /** `(log) => regex.test(log.line)`. */
  function Matches(re: RegexEngine, pattern: string): LogRecord -> bool {
    (x: LogRecord) => re.test(pattern, x.line)
  }

  function Query(buf: seq<LogRecord>, lines: Option<int>, grep: Option<string>, re: RegexEngine)
    : (r: Result<seq<LogRecord>, string>)
    ensures r.Failure? <==> grep.Some? && grep.value != "" && !re.compiles(grep.value)
    ensures r.Failure? ==> r.error == grep.value
    ensures r.Success? ==> multiset(r.value) <= multiset(Recent(buf, lines.GetOr(DefaultLines)))
    ensures r.Success? && (grep.None? || grep.value == "") ==> r.value == Recent(buf, lines.GetOr(DefaultLines))
    ensures r.Success? && grep.Some? && grep.value != "" ==>
              && r.value == Filter(Recent(buf, lines.GetOr(DefaultLines)), Matches(re, grep.value))
              && forall x :: multiset(r.value)[x] ==
                   if re.test(grep.value, x.line) then multiset(Recent(buf, lines.GetOr(DefaultLines)))[x] else 0
  {
    var recent := Recent(buf, lines.GetOr(DefaultLines));
    if grep.Some? && grep.value != "" then
      var g := grep.value;
      if !re.compiles(g) then Failure(g)
      else Success(Filter(recent, Matches(re, g)))
    else Success(recent)
  }
}

=== FILE: portscan.dfy ===
/** `findAvailablePort` (server.mjs:114-122): an ascending scan for a port
    on which a listener can be bound. Binding is an oracle `free`. */
module PortScan {
  import opened Wrappers

  /** The default `maxTries`. */
  const DefaultTries: int := 10

  /** The error thrown when every port in `first..last` is taken. */
  datatype NoPort = NoPort(first: int, last: int)

  /** Tries `start + i`, `start + i + 1`, ... up to `start + maxTries - 1`,
      knowing that the ports before `start + i` are taken. */
  function ScanFrom(free: int -> bool, start: int, maxTries: int, i: nat): (r: Result<int, NoPort>)
    requires forall p | start <= p < start + i :: !free(p)
    ensures r.Success? ==> start + i <= r.value < start + maxTries && free(r.value)
    ensures r.Success? ==> forall p | start <= p < r.value :: !free(p)
    ensures r.Failure? ==> r.error == NoPort(start, start + maxTries - 1)
    ensures r.Failure? ==> forall p | start <= p < start + maxTries :: !free(p)
    decreases maxTries - i
  {
    if i >= maxTries then Failure(NoPort(start, start + maxTries - 1))
    else if free(start + i) then Success(start + i)
    else ScanFrom(free, start, maxTries, i + 1)
  }

  /** The least free port in `[start, start + maxTries)`, or `NoPort` when
      that range has none. */
  function FindAvailablePort(free: int -> bool, start: int, maxTries: int): (r: Result<int, NoPort>)
    ensures r.Success? ==> start <= r.value < start + maxTries && free(r.value)
    ensures r.Success? ==> forall p | start <= p < r.value :: !free(p)
    ensures r.Failure? <==> forall p | start <= p < start + maxTries :: !free(p)
    ensures r.Failure? ==> r.error == NoPort(start, start + maxTries - 1)
  {
    ScanFrom(free, start, maxTries, 0)
  }

  /** With `n` taken ports in front of a free one, the scan lands on `start + n`. */
  lemma SkipsTakenPorts(free: int -> bool, start: int, n: nat)
    requires n < DefaultTries
    requires forall p | start <= p < start + n :: !free(p)
    requires free(start + n)
    ensures FindAvailablePort(free, start, DefaultTries) == Success(start + n)
  {
  }
}

=== FILE: registry.dfy ===
/** The entries of the process registry (server.mjs:18, 690-700), alias
    resolution (server.mjs:130-134) and the project-prefix naming
    convention (server.mjs:430, 516, 900). */
module Registry {
  import opened Wrappers
  import opened Strings
  import opened LogStore
  import opened Health

  type Label = string

  /** The `ports` object: `main`, and the `cloud`/`site` pair of a Convex service. */
  datatype Ports = Ports(main: Option<int>, cloud: Option<int>, site: Option<int>)

  const NoPorts: Ports := Ports(None, None, None)

  /** What `startProcess` closes over: everything needed to spawn the
      command again under the same label. */
  datatype Launch = Launch(
    cwd: string,
    command: string,
    name: Label,
    ports: Ports,
    autoRestart: bool,
    healthEndpoint: Option<string>)

  /** A `procs` entry. The child handle is represented by its pid. */
  datatype Entry = Entry(
    pid: Pid,
    cwd: string,
    command: string,
    logs: seq<LogRecord>,
    ports: Ports,
    autoRestart: bool,
    startedAt: Time,
    health: Health)

  /** `aliases.get(name) || name`: one lookup, and an alias mapped to the
      empty string falls back to the name itself. */
  function Resolve(aliases: map<string, Label>, name: string): (l: Label)
    ensures name in aliases && aliases[name] != "" ==> l == aliases[name]
    ensures name !in aliases || aliases[name] == "" ==> l == name
  {
    if name in aliases && aliases[name] != "" then aliases[name] else name
  }

  /** A name resolves to itself or to the target of some alias. */
  lemma ResolveRange(aliases: map<string, Label>, name: string)
    ensures Resolve(aliases, name) == name || Resolve(aliases, name) in aliases.Values
  {
  }

  /** No alias leads to a name that is itself redirected elsewhere. */
  predicate NoChains(aliases: map<string, Label>) {
    forall a | a in aliases && aliases[a] != "" ::
      var t := aliases[a];
      t !in aliases || aliases[t] == "" || aliases[t] == t
  }

  /** One lookup is as good as following the aliases to the end (resolving
      twice changes nothing) exactly when no alias leads into another. */
  lemma ResolveIdempotentIff(aliases: map<string, Label>)
    ensures NoChains(aliases) <==> forall n :: Resolve(aliases, Resolve(aliases, n)) == Resolve(aliases, n)
  {
    if NoChains(aliases) {
      forall n
        ensures Resolve(aliases, Resolve(aliases, n)) == Resolve(aliases, n)
      {
        if n in aliases && aliases[n] != "" {
          var t := aliases[n];
          assert t !in aliases || aliases[t] == "" || aliases[t] == t;
        }
      }
    }
    if forall n :: Resolve(aliases, Resolve(aliases, n)) == Resolve(aliases, n) {
      forall a | a in aliases && aliases[a] != ""
        ensures var t := aliases[a]; t !in aliases || aliases[t] == "" || aliases[t] == t
      {
        assert Resolve(aliases, Resolve(aliases, a)) == Resolve(aliases, a);
      }
    }
  }

  /** Only one alias step is taken: an alias of an alias is not followed. */
  lemma ResolveOneStep()
    ensures Resolve(map["web" := "next", "next" := "shop:next"], "web") == "next"
  {
  }

  /** An alias hides a registry label spelled like it: looking the name
      up always lands on the alias target, never on the label itself. */
  lemma AliasShadowsLabel(aliases: map<string, Label>, name: string)
    requires name in aliases && aliases[name] != "" && aliases[name] != name
    ensures Resolve(aliases, name) == aliases[name] && Resolve(aliases, name) != name
  {
  }

  /** `label.startsWith(project + ':')`. */
  predicate InProject(l: Label, project: string) {
    project + ":" <= l
  }

  /** The label `startService` and `down` give a service of a project:
      `${projectName}:${service.label}`, or the bare service label when the
      project name is empty. */
  function ServiceLabel(projectName: string, serviceLabel: string): (l: Label)
    ensures projectName != "" ==> InProject(l, projectName) && l[|projectName| + 1..] == serviceLabel
    ensures projectName == "" ==> l == serviceLabel
  {
    if projectName != "" then projectName + ":" + serviceLabel else serviceLabel
  }

  /** Two different project names without a colon select disjoint sets of labels. */
  lemma ProjectsDisjoint(p: string, q: string, l: Label)
    requires p != q && ':' !in p && ':' !in q
    ensures !(InProject(l, p) && InProject(l, q))
  {
    if InProject(l, p) && InProject(l, q) {
      if |p| < |q| {
        CharOfPrefix(q + ":", l, |p|);
      } else if |q| < |p| {
        CharOfPrefix(p + ":", l, |q|);
      } else {
        SameLengthPrefix(p, q, l);
      }
    }
  }

  lemma CharOfPrefix(a: string, l: string, k: nat)
    requires a <= l && k < |a|
    ensures l[k] == a[k]
  {
  }

  lemma SameLengthPrefix(p: string, q: string, l: string)
    requires p <= l && q <= l && |p| == |q|
    ensures p == q
  {
  }

  /** A service started for a colon-free project is selected by the
      project filter of exactly that project. */
  lemma ServiceLabelSelected(projectName: string, serviceLabel: string, q: string)
    requires projectName != "" && ':' !in projectName && ':' !in q
    ensures InProject(ServiceLabel(projectName, serviceLabel), q) <==> q == projectName
  {
    if q != projectName {
      ProjectsDisjoint(projectName, q, ServiceLabel(projectName, serviceLabel));
    }
  }
}

=== FILE: services.dfy ===
/** `startService` (server.mjs:427-474): the label and command of one
    configured service, with automatic port assignment, handed to `start`. */
module Services {
  import opened Wrappers
  import opened Strings
  import opened LogStore
  import opened Registry
  import opened Supervisor
  import opened PortScan
  import AllowList

  /** One element of `services` in `.devserver.json`. */
  datatype Service = Service(
    name: string,
    command: string,
    port: Option<int>,
    cloudPort: Option<int>,
    sitePort: Option<int>,
    healthEndpoint: Option<string>)

  datatype ServiceError =
    | Refused(error: Error)          // thrown by the allow-list check or by `start`
    | PortsExhausted(range: NoPort)  // thrown by `findAvailablePort`

  /** A port setting that is present and not `0`. */
  predicate Truthy(p: Option<int>) {
    p.Some? && p.value != 0
  }

  /** The command and ports `startService` hands to `start`. */
  datatype Plan = Plan(command: string, ports: Ports)

  const ConvexMarker: string := "convex dev"

  function ConvexFlags(cloud: int, site: int): string {
    " --local --local-cloud-port " + IntToString(cloud) + " --local-site-port " + IntToString(site)
  }

  /** The Convex step: with both a cloud and a site port, each is moved to
      the nearest free one, and a `convex dev` command is told about them. */
  function PlanConvex(service: Service, command: string, main: Option<int>, free: int -> bool)
    : (r: Result<Plan, ServiceError>)
    ensures !(Truthy(service.cloudPort) && Truthy(service.sitePort)) ==>
              r == Success(Plan(command, Ports(main, None, None)))
    ensures r.Success? ==> command <= r.value.command && r.value.ports.main == main
    ensures Truthy(service.cloudPort) && Truthy(service.sitePort) ==>
              (r.Success? <==> && FindAvailablePort(free, service.cloudPort.value, DefaultTries).Success?
                               && FindAvailablePort(free, service.sitePort.value, DefaultTries).Success?)
    ensures r.Success? && Truthy(service.cloudPort) && Truthy(service.sitePort) ==>
              && r.value.ports.cloud == Some(FindAvailablePort(free, service.cloudPort.value, DefaultTries).value)
              && r.value.ports.site == Some(FindAvailablePort(free, service.sitePort.value, DefaultTries).value)
              && r.value.command == command + (if Contains(command, ConvexMarker)
                                               then ConvexFlags(r.value.ports.cloud.value, r.value.ports.site.value)
                                               else "")
    ensures r.Success? ==>
              (r.value.command != command <==>
                 Truthy(service.cloudPort) && Truthy(service.sitePort) && Contains(command, ConvexMarker))
  {
    if Truthy(service.cloudPort) && Truthy(service.sitePort) then
      match FindAvailablePort(free, service.cloudPort.value, DefaultTries)
      case Failure(e) => Failure(PortsExhausted(e))
      case Success(cloud) =>
        match FindAvailablePort(free, service.sitePort.value, DefaultTries)
        case Failure(e) => Failure(PortsExhausted(e))
        case Success(site) =>
          var cmd := if Contains(command, ConvexMarker) then command + ConvexFlags(cloud, site) else command;
          Success(Plan(cmd, Ports(main, Some(cloud), Some(site))))
    else Success(Plan(command, Ports(main, None, None)))
  }

  /** The prefix `startService` writes when the configured port is taken. */
  function PortPrefix(port: int): string {
    "PORT=" + IntToString(port) + " "
  }

  /** The port step, then the Convex step. */
  function PlanService(service: Service, free: int -> bool): (r: Result<Plan, ServiceError>)
    ensures r.Success? <==>
              && (Truthy(service.port) ==> FindAvailablePort(free, service.port.value, DefaultTries).Success?)
              && (Truthy(service.cloudPort) && Truthy(service.sitePort) ==>
                    && FindAvailablePort(free, service.cloudPort.value, DefaultTries).Success?
                    && FindAvailablePort(free, service.sitePort.value, DefaultTries).Success?)
    ensures r.Success? ==>
              (r.value.ports.cloud.Some? <==> Truthy(service.cloudPort) && Truthy(service.sitePort))
              && r.value.ports.cloud.Some? == r.value.ports.site.Some?
    ensures Truthy(service.port) && FindAvailablePort(free, service.port.value, DefaultTries).Failure? ==>
              r == Failure(PortsExhausted(NoPort(service.port.value, service.port.value + DefaultTries - 1)))
    ensures r.Success? && Truthy(service.port) ==>
              r.value.ports.main == Some(FindAvailablePort(free, service.port.value, DefaultTries).value)
    ensures r.Success? && !Truthy(service.port) ==> r.value.ports.main.None?
    ensures r.Success? && Shifted(service, free) ==>
              PortPrefix(r.value.ports.main.value) + service.command <= r.value.command
    ensures r.Success? && !Shifted(service, free) ==> service.command <= r.value.command
    ensures r.Success? && Truthy(service.cloudPort) && Truthy(service.sitePort) ==>
              && r.value.ports.cloud == Some(FindAvailablePort(free, service.cloudPort.value, DefaultTries).value)
              && r.value.ports.site == Some(FindAvailablePort(free, service.sitePort.value, DefaultTries).value)
    ensures r.Success? ==>
              var base := if Shifted(service, free) then PortPrefix(r.value.ports.main.value) + service.command
                          else service.command;
              r.value.command == base + (if Truthy(service.cloudPort) && Truthy(service.sitePort) && Contains(base, ConvexMarker)
                                         then ConvexFlags(r.value.ports.cloud.value, r.value.ports.site.value)
                                         else "")
  {
    if Truthy(service.port) then
      match FindAvailablePort(free, service.port.value, DefaultTries)
      case Failure(e) => Failure(PortsExhausted(e))
      case Success(p) =>
        var cmd := if p != service.port.value then PortPrefix(p) + service.command else service.command;
        PlanConvex(service, cmd, Some(p), free)
    else PlanConvex(service, service.command, None, free)
  }

  /** The configured port is taken and another one in range is free, so
      `startService` rewrites the command. */
  predicate Shifted(service: Service, free: int -> bool) {
    && Truthy(service.port)
    && FindAvailablePort(free, service.port.value, DefaultTries).Success?
    && FindAvailablePort(free, service.port.value, DefaultTries).value != service.port.value
  }

  lemma ShiftedExactly(service: Service, free: int -> bool)
    requires Truthy(service.port) && FindAvailablePort(free, service.port.value, DefaultTries).Success?
    ensures Shifted(service, free) <==> !free(service.port.value)
  {
  }

  /** An allowed command stays allowed through every rewrite except the
      `PORT=` prefix, and the prefix makes any command refused. */
  lemma PlanAllowed(service: Service, free: int -> bool)
    requires AllowList.IsCommandAllowed(service.command)
    requires PlanService(service, free).Success?
    ensures AllowList.IsCommandAllowed(PlanService(service, free).value.command) <==> !Shifted(service, free)
  {
    var cmd := PlanService(service, free).value.command;
    if Shifted(service, free) {
      assert cmd[0] == 'P';
      AllowList.RefusedByFirstChar(cmd);
    } else {
      AllowList.AllowedExtends(service.command, cmd[|service.command|..]);
      assert service.command + cmd[|service.command|..] == cmd;
    }
  }

  /** `startService(cwd, service, projectName)` as written: the allow-list
      check of the configured command, the port plan, then `start`, which
      checks the rewritten command against the allow-list again. */
  function StartService(s: State, cwd: string, service: Service, projectName: string, free: int -> bool, now: Time)
    : (r: Result<(Pid, State), ServiceError>)
    requires forall i | i in s.intervals :: i < s.nextInterval
    ensures !AllowList.IsCommandAllowed(service.command) ==> r == Failure(Refused(NotAllowed(service.command)))
    ensures r.Success? <==>
              && AllowList.IsCommandAllowed(service.command)
              && PlanService(service, free).Success?
              && !Shifted(service, free)
              && ServiceLabel(projectName, service.name) !in s.procs
    ensures r.Success? ==>
              var l := ServiceLabel(projectName, service.name);
              && r.value.1.procs.Keys == s.procs.Keys + {l}
              && r.value.1.procs[l].command == PlanService(service, free).value.command
              && r.value.1.procs[l].ports == PlanService(service, free).value.ports
              && (forall i | i in r.value.1.intervals :: i < r.value.1.nextInterval)
  {
    if !AllowList.IsCommandAllowed(service.command) then Failure(Refused(NotAllowed(service.command)))
    else
      match PlanService(service, free)
      case Failure(e) => Failure(e)
      case Success(plan) =>
        var args := StartArgs(Some(cwd), Some(plan.command), ServiceLabel(projectName, service.name),
                              plan.ports, None, service.healthEndpoint);
        PlanAllowed(service, free);
        match Start(s, args, now)
        case Failure(e) => Failure(Refused(e))
        case Success(started) => Success(started)
  }

  /** The as-written behaviour: whenever the configured port is taken but
      a later one is free, the service is refused with the rewritten
      command, although the configured command is allowed. */
  lemma ShiftedPortRefused(s: State, cwd: string, service: Service, projectName: string, free: int -> bool, now: Time)
    requires forall i | i in s.intervals :: i < s.nextInterval
    requires AllowList.IsCommandAllowed(service.command)
    requires Shifted(service, free) && PlanService(service, free).Success?
    requires ServiceLabel(projectName, service.name) !in s.procs
    ensures StartService(s, cwd, service, projectName, free, now)
            == Failure(Refused(NotAllowed(PlanService(service, free).value.command)))
  {
    PlanAllowed(service, free);
  }

  /** `startService` as evidently intended: the configured command is the
      one the allow-list judges, and the rewritten command is launched
      without being judged again. */
  function StartServiceFixed(s: State, cwd: string, service: Service, projectName: string, free: int -> bool, now: Time)
    : (r: Result<(Pid, State), ServiceError>)
    requires forall i | i in s.intervals :: i < s.nextInterval
    ensures var l := ServiceLabel(projectName, service.name);
            r.Success? <==> AllowList.IsCommandAllowed(service.command) && PlanService(service, free).Success? && l !in s.procs
    ensures r.Success? ==>
              var l := ServiceLabel(projectName, service.name);
              var plan := PlanService(service, free).value;
              && r.value.1.procs.Keys == s.procs.Keys + {l}
              && (forall x | x in s.procs :: r.value.1.procs[x] == s.procs[x])
              && r.value.1.procs[l].command == plan.command
              && r.value.1.procs[l].ports == plan.ports
              && r.value.1.procs[l].autoRestart
              && (forall i | i in r.value.1.intervals :: i < r.value.1.nextInterval)
  {
    var l := ServiceLabel(projectName, service.name);
    if !AllowList.IsCommandAllowed(service.command) then Failure(Refused(NotAllowed(service.command)))
    else
      match PlanService(service, free)
      case Failure(e) => Failure(e)
      case Success(plan) =>
        if l in s.procs then Failure(Refused(AlreadyRunning(l)))
        else Success(StartProcess(s, Launch(cwd, plan.command, l, plan.ports, true, service.healthEndpoint), now))
  }

  /** With the fix, a service whose configured port is taken starts on the
      nearest free port, with the command told about it. */
  lemma ShiftedPortStarts(s: State, cwd: string, service: Service, projectName: string, free: int -> bool, now: Time)
    requires forall i | i in s.intervals :: i < s.nextInterval
    requires AllowList.IsCommandAllowed(service.command)
    requires Shifted(service, free) && PlanService(service, free).Success?
    requires ServiceLabel(projectName, service.name) !in s.procs
    ensures var r := StartServiceFixed(s, cwd, service, projectName, free, now);
            && r.Success?
            && var e := r.value.1.procs[ServiceLabel(projectName, service.name)];
               && e.ports.main == Some(FindAvailablePort(free, service.port.value, DefaultTries).value)
               && e.ports.main != service.port
               && PortPrefix(e.ports.main.value) + service.command <= e.command
  {
  }

  /** `up({cwd})` over the configured services, each started with
      `startService` as written; a service that fails is reported and the
      next one is still started. No service whose port had to move is ever
      started. */
  function Up(s: State, cwd: string, services: seq<Service>, projectName: string, free: int -> bool, now: Time)
    : (r: (seq<Result<Label, ServiceError>>, State))
    requires forall i | i in s.intervals :: i < s.nextInterval
    ensures |r.0| == |services|
    ensures s.procs.Keys <= r.1.procs.Keys
    ensures forall k | 0 <= k < |services| && r.0[k].Success? ::
              r.0[k].value == ServiceLabel(projectName, services[k].name) && r.0[k].value in r.1.procs
    ensures forall k | 0 <= k < |services| && r.0[k].Success? :: !Shifted(services[k], free)
    decreases |services|
  {
    if services == [] then ([], s)
    else
      var l := ServiceLabel(projectName, services[0].name);
      match StartService(s, cwd, services[0], projectName, free, now)
      case Success((_, s1)) =>
        var (rest, s2) := Up(s1, cwd, services[1..], projectName, free, now);
        ([Success(l)] + rest, s2)
      case Failure(e) =>
        var (rest, s2) := Up(s, cwd, services[1..], projectName, free, now);
        ([Failure(e)] + rest, s2)
  }

  /** What `startService` as written needs of the service itself, apart
      from its label being free: an allowed command, ports found, and the
      configured port not moved. */
  predicate Startable(service: Service, free: int -> bool) {
    && AllowList.IsCommandAllowed(service.command)
    && PlanService(service, free).Success?
    && !Shifted(service, free)
  }

  /** The outcomes of `up` are exactly as expected when each service
      succeeds iff it is startable, its label is not in `taken`, and no
      earlier service of the list succeeded under the same label. */
  predicate StartedExactly(outcomes: seq<Result<Label, ServiceError>>, services: seq<Service>, projectName: string,
                           free: int -> bool, taken: set<Label>)
    requires |outcomes| == |services|
  {
    forall k | 0 <= k < |services| ::
      outcomes[k].Success? <==>
        && Startable(services[k], free)
        && ServiceLabel(projectName, services[k].name) !in taken
        && (forall j | 0 <= j < k && outcomes[j].Success? ::
              ServiceLabel(projectName, services[j].name) != ServiceLabel(projectName, services[k].name))
  }

  /** One service in front: it takes its label exactly when it succeeds. */
  lemma StartedExactlyCons(first: Result<Label, ServiceError>, rest: seq<Result<Label, ServiceError>>,
                           services: seq<Service>, projectName: string, free: int -> bool,
                           taken: set<Label>, taken': set<Label>)
    requires |services| >= 1 && |rest| == |services| - 1
    requires var l := ServiceLabel(projectName, services[0].name);
             && (first.Success? <==> Startable(services[0], free) && l !in taken)
             && taken' == (if first.Success? then taken + {l} else taken)
    requires StartedExactly(rest, services[1..], projectName, free, taken')
    ensures StartedExactly([first] + rest, services, projectName, free, taken)
  {
    var outcomes := [first] + rest;
    forall k | 1 <= k < |services|
      ensures outcomes[k].Success? <==>
                && Startable(services[k], free)
                && ServiceLabel(projectName, services[k].name) !in taken
                && (forall j | 0 <= j < k && outcomes[j].Success? ::
                      ServiceLabel(projectName, services[j].name) != ServiceLabel(projectName, services[k].name))
    {
      assert outcomes[k] == rest[k - 1] && services[k] == services[1..][k - 1];
      assert forall j | 1 <= j < k :: outcomes[j] == rest[j - 1] && services[j] == services[1..][j - 1];
    }
  }

  /** `up` starts exactly the services that can start: a service succeeds
      when it is startable, its label was not registered before, and no
      earlier service of the list already took that label. */
  lemma {:induction false} UpStartsExactly(s: State, cwd: string, services: seq<Service>, projectName: string,
                                           free: int -> bool, now: Time)
    requires forall i | i in s.intervals :: i < s.nextInterval
    ensures StartedExactly(Up(s, cwd, services, projectName, free, now).0, services, projectName, free, s.procs.Keys)
    decreases |services|
  {
    if services != [] {
      var outcomes := Up(s, cwd, services, projectName, free, now).0;
      var l := ServiceLabel(projectName, services[0].name);
      match StartService(s, cwd, services[0], projectName, free, now)
      case Success((_, s1)) =>
        var rest := Up(s1, cwd, services[1..], projectName, free, now).0;
        assert outcomes == [Success(l)] + rest;
        UpStartsExactly(s1, cwd, services[1..], projectName, free, now);
        StartedExactlyCons(Success(l), rest, services, projectName, free, s.procs.Keys, s1.procs.Keys);
      case Failure(e) =>
        var rest := Up(s, cwd, services[1..], projectName, free, now).0;
        assert outcomes == [Failure(e)] + rest;
        UpStartsExactly(s, cwd, services[1..], projectName, free, now);
        StartedExactlyCons(Failure(e), rest, services, projectName, free, s.procs.Keys, s.procs.Keys);
    }
  }

  /** With distinct labels, none of them registered yet, `up` starts
      exactly the startable services. */
  lemma UpStartsStartable(s: State, cwd: string, services: seq<Service>, projectName: string,
                          free: int -> bool, now: Time)
    requires forall i | i in s.intervals :: i < s.nextInterval
    requires forall j, k | 0 <= j < k < |services| ::
               ServiceLabel(projectName, services[j].name) != ServiceLabel(projectName, services[k].name)
    requires forall k | 0 <= k < |services| :: ServiceLabel(projectName, services[k].name) !in s.procs
    ensures var outcomes := Up(s, cwd, services, projectName, free, now).0;
            forall k | 0 <= k < |services| :: outcomes[k].Success? <==> Startable(services[k], free)
  {
    UpStartsExactly(s, cwd, services, projectName, free, now);
  }
}

=== FILE: strings.dfy ===
/** The JavaScript string operations the supervisor relies on, over `seq<char>`. */
module Strings {
  import opened Wrappers

  /** The `\s` class of a JavaScript regular expression, which is also the
      set `String.prototype.trim` removes: WhiteSpace and LineTerminator. */
  predicate IsSpace(c: char) {
    var n := c as int;
    n == 0x09 || n == 0x0A || n == 0x0B || n == 0x0C || n == 0x0D || n == 0x20
    || n == 0xA0 || n == 0x1680 || (0x2000 <= n <= 0x200A)
    || n == 0x2028 || n == 0x2029 || n == 0x202F || n == 0x205F
    || n == 0x3000 || n == 0xFEFF
  }

  /** The `\w` class (no `u` flag): ASCII letters, digits and underscore. */
  predicate IsWordChar(c: char) {
    ('a' <= c <= 'z') || ('A' <= c <= 'Z') || ('0' <= c <= '9') || c == '_'
  }

  /** The `\d` class. */
  predicate IsDigit(c: char) {
    '0' <= c <= '9'
  }

  /** `s.trim() === ''`: the string holds nothing but whitespace. */
  predicate IsBlank(s: string) {
    forall k | 0 <= k < |s| :: IsSpace(s[k])
  }

  /** `s.includes(t)`. */
  predicate Contains(s: string, t: string)
    decreases |s|
  {
    t <= s || (s != [] && Contains(s[1..], t))
  }

  /** `a || b` on an optional string: the empty string is falsy. */
  function OrElse(a: Option<string>, b: string): (r: string)
    ensures a.Some? && a.value != "" ==> r == a.value
    ensures a.None? || a.value == "" ==> r == b
  {
    if a.Some? && a.value != "" then a.value else b
  }

  /** The end of the longest run of `cls` characters that starts at `i`. */
  function Skip(s: string, i: nat, cls: char -> bool): (j: nat)
    requires i <= |s|
    ensures i <= j <= |s|
    ensures forall k | i <= k < j :: cls(s[k])
    ensures j == |s| || !cls(s[j])
    decreases |s| - i
  {
    if i == |s| || !cls(s[i]) then i else Skip(s, i + 1, cls)
  }

  /** A run that ends at a character outside the class is the run `Skip` finds. */
  lemma SkipUnique(s: string, i: nat, j: nat, cls: char -> bool)
    requires i <= j <= |s|
    requires forall k | i <= k < j :: cls(s[k])
    requires j == |s| || !cls(s[j])
    ensures Skip(s, i, cls) == j
  {
  }

  /** `s.split(sep)` for a one-character separator: the empty string gives
      one empty piece, and a trailing separator gives a trailing empty piece. */
  function Split(s: string, sep: char): (parts: seq<string>)
    ensures |parts| >= 1
    ensures forall k | 0 <= k < |parts| :: sep !in parts[k]
    decreases |s|
  {
    if s == [] then [[]]
    else
      var rest := Split(s[1..], sep);
      if s[0] == sep then [[]] + rest
      else [[s[0]] + rest[0]] + rest[1..]
  }

  /** `parts.join(sep)`. */
  function Join(parts: seq<string>, sep: char): string
    requires |parts| >= 1
  {
    if |parts| == 1 then parts[0] else parts[0] + [sep] + Join(parts[1..], sep)
  }

  /** Splitting loses no text: joining the pieces gives the string back. */
  lemma {:induction false} JoinSplit(s: string, sep: char)
    ensures Join(Split(s, sep), sep) == s
    decreases |s|
  {
    if s != [] {
      var rest := Split(s[1..], sep);
      JoinSplit(s[1..], sep);
      if s[0] == sep {
        assert Split(s, sep)[1..] == rest;
      } else {
        var parts := Split(s, sep);
        assert parts[0] == [s[0]] + rest[0];
        if |rest| == 1 {
          assert Join(parts, sep) == [s[0]] + rest[0];
        } else {
          assert parts[1..] == rest[1..];
          assert Join(parts, sep) == [s[0]] + rest[0] + [sep] + Join(rest[1..], sep);
        }
      }
    }
  }

  /** A separator-free prefix glues onto the first piece. */
  lemma {:induction false} SplitPrefix(p: string, t: string, sep: char)
    requires sep !in p
    ensures Split(p + t, sep) == [p + Split(t, sep)[0]] + Split(t, sep)[1..]
    decreases |p|
  {
    if p != [] {
      assert (p + t)[1..] == p[1..] + t;
      assert p[0] != sep;
      SplitPrefix(p[1..], t, sep);
      assert [p[0]] + (p[1..] + Split(t, sep)[0]) == p + Split(t, sep)[0];
    } else {
      assert p + t == t;
      assert p + Split(t, sep)[0] == Split(t, sep)[0];
      assert [Split(t, sep)[0]] + Split(t, sep)[1..] == Split(t, sep);
    }
  }

  /** Splitting is the inverse of joining separator-free pieces, so the
      pieces `Split` returns are exactly the maximal separator-free runs. */
  lemma {:induction false} SplitJoin(parts: seq<string>, sep: char)
    requires |parts| >= 1
    requires forall k | 0 <= k < |parts| :: sep !in parts[k]
    ensures Split(Join(parts, sep), sep) == parts
    decreases |parts|
  {
    if |parts| == 1 {
      SplitPrefix(parts[0], [], sep);
      assert parts[0] + [] == parts[0];
    } else {
      var tail := Join(parts[1..], sep);
      SplitJoin(parts[1..], sep);
      SplitPrefix(parts[0], [sep] + tail, sep);
      assert parts[0] + [sep] + tail == parts[0] + ([sep] + tail);
      assert ([sep] + tail)[1..] == tail;
      assert Split([sep] + tail, sep) == [[]] + parts[1..];
      assert parts[0] + [] == parts[0];
    }
  }

  /** A chunk that ends with the separator closes its last piece: the
      pieces of `a + b` are those of `a` without its empty last piece,
      followed by those of `b`. */
  lemma {:induction false} SplitAfterSep(a: string, b: string, sep: char)
    requires |a| >= 1 && a[|a| - 1] == sep
    ensures |Split(a, sep)| >= 2
    ensures Split(a, sep)[|Split(a, sep)| - 1] == []
    ensures Split(a + b, sep) == Split(a, sep)[..|Split(a, sep)| - 1] + Split(b, sep)
    decreases |a|
  {
    var pa := Split(a, sep);
    if |a| == 1 {
      assert a == [sep];
      assert (a + b)[1..] == b;
      assert a[1..] == [];
      assert pa == [[]] + Split([], sep) == [[], []];
    } else {
      var c, a' := a[0], a[1..];
      assert (a + b)[1..] == a' + b;
      assert a'[|a'| - 1] == sep;
      SplitAfterSep(a', b, sep);
      var pa' := Split(a', sep);
      var p := pa'[..|pa'| - 1];
      if c == sep {
        assert pa == [[]] + pa';
        assert pa[..|pa| - 1] == [[]] + p;
      } else {
        assert pa == [[c] + pa'[0]] + pa'[1..];
        assert Split(a' + b, sep)[0] == pa'[0];
        assert Split(a' + b, sep)[1..] == p[1..] + Split(b, sep);
        assert pa[..|pa| - 1] == [[c] + pa'[0]] + p[1..];
      }
    }
  }

  function DigitChar(d: nat): char
    requires d < 10
  {
    ['0', '1', '2', '3', '4', '5', '6', '7', '8', '9'][d]
  }

  function DigitValue(c: char): nat
    requires IsDigit(c)
  {
    (c as int) - ('0' as int)
  }

  /** The value of a string of decimal digits. */
  function DigitsValue(s: string): nat
    requires forall k | 0 <= k < |s| :: IsDigit(s[k])
  {
    if s == [] then 0
    else DigitsValue(s[..|s| - 1]) * 10 + DigitValue(s[|s| - 1])
  }

  /** `String(n)` for a natural number: its shortest decimal rendering. */
  function NatToString(n: nat): (s: string)
    ensures |s| >= 1
    ensures forall k | 0 <= k < |s| :: IsDigit(s[k])
    ensures DigitsValue(s) == n
    ensures s[0] == '0' ==> n == 0
    ensures |s| == 1 || s[0] != '0'
  {
    if n < 10 then [DigitChar(n)]
    else
      var s := NatToString(n / 10) + [DigitChar(n % 10)];
      assert s[..|s| - 1] == NatToString(n / 10);
      s
  }

  /** `String(i)` for an integer. */
  function IntToString(i: int): (s: string)
    ensures i >= 0 ==> s == NatToString(i)
    ensures i < 0 ==> s == "-" + NatToString(-i)
  {
    if i < 0 then "-" + NatToString(-i) else NatToString(i)
  }
}

=== FILE: supervisor.dfy ===
/** The supervisor's state machine (server.mjs:129-187, 598-826): the
    registry with its iteration order, the aliases, the health checkers and
    their intervals, and the pending timers, with one pure step function per
    command and per event. Spawning, signals, timers and network probes are
    outside the model: a timer firing, a chunk of output, a child's exit and
    a probe's outcome are events whose contents are parameters. */
module Supervisor {
  import opened Wrappers
  import opened Strings
  import opened LogStore
  import opened Health
  import opened Registry
  import AllowList

  /** A health probe of `http://localhost:<port>/health` on behalf of a label. */
  datatype Probe = Probe(name: Label, port: int)

  /** The arguments of `start`; `None` is an absent property. */
  datatype StartArgs = StartArgs(
    cwd: Option<string>,
    command: Option<string>,
    name: Label,
    ports: Ports,
    autoRestart: Option<bool>,
    healthEndpoint: Option<string>)

  /** A pending `setTimeout`. */
  datatype Timer =
    | Relaunch(launch: Launch)             // the 3-second delay of the auto-restart
    | ForceKill(name: Label, pid: Pid)     // the 5-second grace period of `stop`
    | FirstProbe(probe: Probe)             // the one-shot 2-second health check
    | RestartSettle(args: StartArgs)       // the 1-second wait of `restart`

  /** The errors `start` and `stop` throw. */
  datatype Error =
    | AlreadyRunning(name: Label)
    | NotAllowed(command: string)
    | NotRunning(name: string)

  datatype State = State(
    procs: map<Label, Entry>,
    order: seq<Label>,             // the insertion order of `procs`
    aliases: map<string, Label>,
    checkers: map<Label, nat>,     // `healthCheckers`: label -> interval id
    intervals: map<nat, Probe>,    // the running `setInterval`s
    timers: multiset<Timer>,
    inflight: multiset<Probe>,     // probes whose `fetch` has not settled
    launches: map<Pid, Launch>,    // what each spawned child was started with
    live: set<Pid>,                // children that have not exited
    nextPid: Pid,
    nextInterval: nat,
    workDir: string,               // `process.cwd()`
    crashed: bool)                 // the server process has ended

  /** A supervisor with nothing running. */
  function Init(workDir: string, aliases: map<string, Label>): State {
    State(map[], [], aliases, map[], map[], multiset{}, multiset{}, map[], {}, 0, 0, workDir, false)
  }

  predicate NoDup(xs: seq<Label>) {
    forall i, j | 0 <= i < j < |xs| :: xs[i] != xs[j]
  }

  /** `procs.set(label, entry)`: a new label goes to the end of the
      iteration order, an existing one keeps its place. */
  function SetEntry(s: State, l: Label, e: Entry): (s': State)
    ensures s'.procs == s.procs[l := e]
    ensures l in s.procs ==> s'.order == s.order
    ensures l !in s.procs ==> s'.order == s.order + [l]
    ensures s' == s.(procs := s'.procs, order := s'.order)
  {
    s.(procs := s.procs[l := e], order := if l in s.procs then s.order else s.order + [l])
  }

  /** The iteration order lists exactly the registered labels, once each. */
  ghost predicate OrderMatches(s: State) {
    (forall x :: x in s.procs <==> x in s.order) && NoDup(s.order)
  }

  /** `procs.set` keeps the iteration order in step with the registry, and
      every label already listed keeps its position. */
  lemma SetEntryKeepsOrder(s: State, l: Label, e: Entry)
    requires OrderMatches(s)
    ensures OrderMatches(SetEntry(s, l, e))
    ensures s.order <= SetEntry(s, l, e).order
    ensures |SetEntry(s, l, e).order| == |s.order| + (if l in s.procs then 0 else 1)
  {
    if l !in s.procs {
      NoDupSnoc(s.order, l);
    }
  }

  lemma NoDupCons(x: Label, r: seq<Label>)
    requires x !in r && NoDup(r)
    ensures NoDup([x] + r)
  {
  }

  lemma RemoveKeepsNoDup(xs: seq<Label>, r: seq<Label>)
    requires xs != []
    requires forall x :: x in r ==> x in xs[1..]
    requires NoDup(xs[1..]) ==> NoDup(r)
    ensures NoDup(xs) ==> NoDup([xs[0]] + r)
  {
    if NoDup(xs) {
      assert NoDup(xs[1..]) && xs[0] !in xs[1..];
      NoDupCons(xs[0], r);
    }
  }

  lemma NoDupSnoc(r: seq<Label>, x: Label)
    requires x !in r && NoDup(r)
    ensures NoDup(r + [x])
  {
  }

  function Other(l: Label): Label -> bool {
    x => x != l
  }

  /** The order without one label; every other label keeps its relative place. */
  function Remove(xs: seq<Label>, l: Label): (r: seq<Label>)
    ensures forall x :: x in r <==> x in xs && x != l
    ensures NoDup(xs) ==> NoDup(r)
  {
    if xs == [] then []
    else if xs[0] == l then Remove(xs[1..], l)
    else
      var r := Remove(xs[1..], l);
      RemoveKeepsNoDup(xs, r);
      [xs[0]] + r
  }

  /** Removing a label is filtering it out: the remaining labels keep
      their relative order, as they do in a `Map` after `delete`. */
  lemma {:induction false} RemoveIsFilter(xs: seq<Label>, l: Label)
    ensures Remove(xs, l) == Filter(xs, Other(l))
    decreases |xs|
  {
    if xs != [] {
      RemoveIsFilter(xs[1..], l);
    }
  }

  /** `procs.delete(label)`. */
  function DeleteEntry(s: State, l: Label): (s': State)
    ensures s'.procs == s.procs - {l}
    ensures forall x :: x in s'.order <==> x in s.order && x != l
    ensures NoDup(s.order) ==> NoDup(s'.order)
    ensures s'.order == Remove(s.order, l)
    ensures s' == s.(procs := s'.procs, order := s'.order)
  {
    s.(procs := s.procs - {l}, order := Remove(s.order, l))
  }

  /** `stopHealthCheck(label)`: the label's interval is cleared and forgotten. */
  function StopHealthCheck(s: State, l: Label): (s': State)
    ensures l !in s'.checkers
    ensures forall x | x in s.checkers && x != l :: x in s'.checkers && s'.checkers[x] == s.checkers[x]
    ensures s'.checkers.Keys <= s.checkers.Keys
    ensures l in s.checkers ==> s'.intervals == s.intervals - {s.checkers[l]}
    ensures l !in s.checkers ==> s'.intervals == s.intervals
    ensures s' == s.(checkers := s'.checkers, intervals := s'.intervals)
  {
    if l in s.checkers then
      s.(checkers := s.checkers - {l}, intervals := s.intervals - {s.checkers[l]})
    else s
  }

  /** `startHealthCheck(label, port)`: a new interval is registered under
      the label, replacing (without clearing) any earlier one, and a
      one-shot first probe is scheduled. */
  function StartHealthCheck(s: State, l: Label, port: int): (s': State)
    ensures port == 0 ==> s' == s
    ensures port != 0 ==>
              && l in s'.checkers
              && s'.checkers[l] !in s.intervals
              && s'.intervals == s.intervals[s'.checkers[l] := Probe(l, port)]
              && s'.timers == s.timers + multiset{FirstProbe(Probe(l, port))}
              && (forall x | x in s.checkers && x != l :: x in s'.checkers && s'.checkers[x] == s.checkers[x])
              && s'.checkers.Keys == s.checkers.Keys + {l}
    ensures s' == s.(checkers := s'.checkers, intervals := s'.intervals, timers := s'.timers,
                     nextInterval := s'.nextInterval)
    ensures s.nextInterval <= s'.nextInterval
    requires forall i | i in s.intervals :: i < s.nextInterval
  {
    if port == 0 then s
    else
      var id := s.nextInterval;
      var p := Probe(l, port);
      s.(checkers := s.checkers[l := id], intervals := s.intervals[id := p],
         timers := s.timers + multiset{FirstProbe(p)}, nextInterval := id + 1)
  }

  /** `ports.main || healthEndpoint`, then `ports.main || 3000`: the port a
      new entry is probed on, if it is probed at all. The endpoint itself is
      never used: every probe asks for `/health`. */
  function MonitoredPort(ports: Ports, healthEndpoint: Option<string>): (r: Option<int>)
    ensures r.Some? ==> r.value != 0
    ensures ports.main.Some? && ports.main.value != 0 ==> r == ports.main
    ensures (ports.main.None? || ports.main.value == 0) && healthEndpoint.Some? && healthEndpoint.value != "" ==> r == Some(3000)
    ensures (ports.main.None? || ports.main.value == 0) && (healthEndpoint.None? || healthEndpoint.value == "") ==> r.None?
  {
    if ports.main.Some? && ports.main.value != 0 then ports.main
    else if healthEndpoint.Some? && healthEndpoint.value != "" then Some(3000)
    else None
  }

  /** The entry `startProcess` records for a freshly spawned child. */
  function FreshEntry(launch: Launch, pid: Pid, now: Time): Entry {
    Entry(pid, launch.cwd, launch.command, [], launch.ports, launch.autoRestart, now, Initial)
  }

  /** `startProcess()`: spawn a child, record its entry under the label and
      start its health checker when it has a port or an endpoint. */
  function StartProcess(s: State, launch: Launch, now: Time): (r: (Pid, State))
    requires forall i | i in s.intervals :: i < s.nextInterval
    ensures r.0 == s.nextPid
    ensures r.1.procs == s.procs[launch.name := FreshEntry(launch, r.0, now)]
    ensures r.1.launches == s.launches[r.0 := launch]
    ensures r.1.live == s.live + {r.0}
    ensures r.1.nextPid == s.nextPid + 1
    ensures MonitoredPort(launch.ports, launch.healthEndpoint).None? ==>
              r.1.checkers == s.checkers && r.1.intervals == s.intervals && r.1.timers == s.timers
    ensures MonitoredPort(launch.ports, launch.healthEndpoint).Some? ==>
              var port := MonitoredPort(launch.ports, launch.healthEndpoint).value;
              launch.name in r.1.checkers && r.1.checkers[launch.name] in r.1.intervals
              && r.1.intervals[r.1.checkers[launch.name]] == Probe(launch.name, port)
              && r.1.timers == s.timers + multiset{FirstProbe(Probe(launch.name, port))}
    ensures r.1.aliases == s.aliases && r.1.inflight == s.inflight && r.1.workDir == s.workDir
    ensures launch.name in s.procs ==> r.1.order == s.order
    ensures launch.name !in s.procs ==> r.1.order == s.order + [launch.name]
    ensures forall i | i in r.1.intervals :: i < r.1.nextInterval
  {
    var pid := s.nextPid;
    var s1 := SetEntry(s, launch.name, FreshEntry(launch, pid, now));
    var s2 := s1.(launches := s1.launches[pid := launch], live := s1.live + {pid}, nextPid := pid + 1);
    match MonitoredPort(launch.ports, launch.healthEndpoint)
    case None => (pid, s2)
    case Some(port) => (pid, StartHealthCheck(s2, launch.name, port))
  }

  /** A new entry is probed exactly when its main port is set and non-zero
      or its health endpoint is non-empty, always on a non-zero port (so a
      checker is really created), and the main port wins over 3000. */
  lemma ProbedExactlyWhenMonitored(s: State, launch: Launch, now: Time)
    requires forall i | i in s.intervals :: i < s.nextInterval
    ensures var s' := StartProcess(s, launch, now).1;
            var main := launch.ports.main;
            var monitored := (main.Some? && main.value != 0)
                             || (launch.healthEndpoint.Some? && launch.healthEndpoint.value != "");
            && (monitored ==>
                  && launch.name in s'.checkers
                  && s'.checkers[launch.name] !in s.intervals
                  && s'.intervals[s'.checkers[launch.name]]
                     == Probe(launch.name, if main.Some? && main.value != 0 then main.value else 3000))
            && (!monitored ==> s'.checkers == s.checkers && s'.intervals == s.intervals)
  {
  }

  /** The command `start` runs: the destructuring default applies only to
      an absent command, not to an empty one. */
  function CommandOf(args: StartArgs): string {
    args.command.GetOr("pnpm dev")
  }

  /** What `start` closes over for the given arguments. */
  function LaunchOf(s: State, args: StartArgs): (launch: Launch)
    ensures launch.name == args.name && launch.command == CommandOf(args) && launch.ports == args.ports
    ensures launch.cwd == OrElse(args.cwd, s.workDir)
    ensures launch.autoRestart <==> args.autoRestart != Some(false)
    ensures launch.healthEndpoint == args.healthEndpoint
  {
    Launch(OrElse(args.cwd, s.workDir), CommandOf(args), args.name, args.ports,
           args.autoRestart != Some(false), args.healthEndpoint)
  }

  /** `start(args)`: refuse a label that is present (looked up as given,
      without alias resolution) before refusing a command outside the
      allow-list; otherwise spawn and record the entry. */
  function Start(s: State, args: StartArgs, now: Time): (r: Result<(Pid, State), Error>)
    requires forall i | i in s.intervals :: i < s.nextInterval
    ensures args.name in s.procs ==> r == Failure(AlreadyRunning(args.name))
    ensures args.name !in s.procs && !AllowList.IsCommandAllowed(CommandOf(args)) ==>
              r == Failure(NotAllowed(CommandOf(args)))
    ensures r.Success? <==> args.name !in s.procs && AllowList.IsCommandAllowed(CommandOf(args))
    ensures r.Success? ==>
              var s' := r.value.1;
              && s'.procs.Keys == s.procs.Keys + {args.name}
              && (forall l | l in s.procs :: s'.procs[l] == s.procs[l])
              && s'.procs[args.name].pid == r.value.0 == s.nextPid
              && s'.procs[args.name].health == Initial
              && s'.procs[args.name].logs == []
              && s'.procs[args.name].command == CommandOf(args)
              && s'.procs[args.name].cwd == OrElse(args.cwd, s.workDir)
              && (s'.procs[args.name].autoRestart <==> args.autoRestart != Some(false))
              && s'.order == s.order + [args.name]
  {
    if args.name in s.procs then Failure(AlreadyRunning(args.name))
    else if !AllowList.IsCommandAllowed(CommandOf(args)) then Failure(NotAllowed(CommandOf(args)))
    else Success(StartProcess(s, LaunchOf(s, args), now))
  }

  /** `stop({label})`: resolve the name, clear the health checker, turn the
      auto-restart off and schedule the forced kill. The entry stays in the
      registry; the exit handler or the forced kill removes it later. */
  function Stop(s: State, name: string): (r: Result<(Label, State), Error>)
    ensures r.Failure? <==> Resolve(s.aliases, name) !in s.procs
    ensures r.Failure? ==> r.error == NotRunning(name)
    ensures r.Success? ==>
              var (l, s') := r.value;
              && l == Resolve(s.aliases, name)
              && s'.procs == s.procs[l := s.procs[l].(autoRestart := false)]
              && s'.order == s.order
              && l !in s'.checkers
              && s'.checkers.Keys <= s.checkers.Keys
              && s'.checkers == s.checkers - {l}
              && s'.intervals == (if l in s.checkers then s.intervals - {s.checkers[l]} else s.intervals)
              && s'.timers == s.timers + multiset{ForceKill(l, s.procs[l].pid)}
              && s' == s.(procs := s'.procs, checkers := s'.checkers, intervals := s'.intervals, timers := s'.timers)
              && s'.launches == s.launches && s'.live == s.live && s'.inflight == s.inflight
              && s'.aliases == s.aliases && s'.workDir == s.workDir
              && s'.nextPid == s.nextPid && s'.nextInterval == s.nextInterval
  {
    var l := Resolve(s.aliases, name);
    if l !in s.procs then Failure(NotRunning(name))
    else
      var proc := s.procs[l];
      var s1 := StopHealthCheck(s, l);
      var s2 := SetEntry(s1, l, proc.(autoRestart := false));
      Success((l, s2.(timers := s2.timers + multiset{ForceKill(l, proc.pid)})))
  }

  /** The arguments the delayed `start` of `restart` is given: overrides
      fall back to the old entry's command and directory, the ports are the
      old entry's, and the health endpoint is dropped. */
  function SettleArgs(args: StartArgs, l: Label, proc: Entry): (a: StartArgs)
    ensures a.name == l && a.ports == proc.ports && a.healthEndpoint.None?
    ensures a.cwd == Some(OrElse(args.cwd, proc.cwd)) && a.command == Some(OrElse(args.command, proc.command))
    ensures a.autoRestart == args.autoRestart
  {
    StartArgs(Some(OrElse(args.cwd, proc.cwd)), Some(OrElse(args.command, proc.command)), l,
              proc.ports, args.autoRestart, None)
  }

  datatype RestartOutcome =
    | Scheduled(next: State)           // an entry was stopped and a delayed start is pending
    | Started(pid: Pid, next: State)   // nothing was running: a plain start

  /** `restart(args)`: a running entry is stopped and started again one
      second later; otherwise this is a plain `start` of the raw name. */
  function Restart(s: State, args: StartArgs, now: Time): (r: Result<RestartOutcome, Error>)
    requires forall i | i in s.intervals :: i < s.nextInterval
    ensures Resolve(s.aliases, args.name) in s.procs ==>
              && Stop(s, args.name).Success?
              && var l := Resolve(s.aliases, args.name);
                 var stopped := Stop(s, args.name).value.1;
                 r == Success(Scheduled(stopped.(timers := stopped.timers +
                                          multiset{RestartSettle(SettleArgs(args, l, s.procs[l]))})))
    ensures Resolve(s.aliases, args.name) !in s.procs ==>
              && (r.Success? <==> Start(s, args, now).Success?)
              && (r.Success? ==> r.value == Started(Start(s, args, now).value.0, Start(s, args, now).value.1))
              && (r.Failure? ==> r.error == Start(s, args, now).error)
  {
    match Stop(s, args.name)
    case Success((l, stopped)) =>
      var settle := RestartSettle(SettleArgs(args, l, s.procs[l]));
      Success(Scheduled(stopped.(timers := stopped.timers + multiset{settle})))
    case Failure(_) =>
      match Start(s, args, now)
      case Success((pid, s')) => Success(Started(pid, s'))
      case Failure(e) => Failure(e)
  }

  /** Whether a child's own buffer is the one its label's entry shows:
      each spawn gets a fresh buffer, so a child that has been replaced
      writes to a buffer nobody reads. */
  predicate Owns(s: State, pid: Pid) {
    pid in s.launches && s.launches[pid].name in s.procs && s.procs[s.launches[pid].name].pid == pid
  }

  /** An update of the buffer of the child `pid`. */
  function UpdateLogs(s: State, pid: Pid, f: seq<LogRecord> -> seq<LogRecord>): (s': State)
    requires pid in s.launches
    ensures Owns(s, pid) ==>
              var l := s.launches[pid].name;
              s'.procs == s.procs[l := s.procs[l].(logs := f(s.procs[l].logs))]
    ensures !Owns(s, pid) ==> s' == s
    ensures s'.procs.Keys == s.procs.Keys
    ensures s' == s.(procs := s'.procs)
  {
    var l := s.launches[pid].name;
    if l in s.procs && s.procs[l].pid == pid then
      s.(procs := s.procs[l := s.procs[l].(logs := f(s.procs[l].logs))])
    else s
  }

  /** A chunk of the child's stdout or stderr (`captureOutput`). */
  function OnOutput(s: State, pid: Pid, chunk: string, now: Time): (s': State)
    requires pid in s.launches
    ensures Owns(s, pid) ==>
              var l := s.launches[pid].name;
              s'.procs == s.procs[l := s.procs[l].(logs := Capture(s.procs[l].logs, chunk, now, pid))]
    ensures !Owns(s, pid) ==> s' == s
    ensures s' == s.(procs := s'.procs)
  {
    UpdateLogs(s, pid, buf => Capture(buf, chunk, now, pid))
  }

  const SpawnErrorPrefix: string := "エラー: "

  /** The child's `error` event: one record, pushed without eviction. */
  function OnSpawnError(s: State, pid: Pid, message: string, now: Time): (s': State)
    requires pid in s.launches
    ensures Owns(s, pid) ==>
              var l := s.launches[pid].name;
              s'.procs == s.procs[l := s.procs[l].(logs := s.procs[l].logs + [LogRecord(now, SpawnErrorPrefix + message, Some(pid), SpawnError)])]
    ensures !Owns(s, pid) ==> s' == s
    ensures s' == s.(procs := s'.procs)
  {
    UpdateLogs(s, pid, buf => buf + [LogRecord(now, SpawnErrorPrefix + message, Some(pid), SpawnError)])
  }

  /** `${code}` and `${signal}` of a value that may be `null`. */
  function NullableText(v: Option<string>): string {
    v.GetOr("null")
  }

  function CodeText(code: Option<int>): string {
    if code.Some? then IntToString(code.value) else "null"
  }

  function ExitRecord(pid: Pid, code: Option<int>, signal: Option<string>, now: Time): LogRecord {
    LogRecord(now, "プロセスが終了しました (code: " + CodeText(code) + ", signal: " + NullableText(signal) + ")",
              Some(pid), Exited(code, signal))
  }

  /** The auto-restart condition of the exit handler, evaluated on whatever
      entry holds the label when the child exits. */
  predicate RelaunchWanted(s: State, l: Label, code: Option<int>, signal: Option<string>) {
    l in s.procs && s.procs[l].autoRestart && code != Some(0)
    && signal != Some("SIGTERM") && signal != Some("SIGKILL")
  }

  /** The buffer update of the exit handler: one exit record appended. */
  function AppendExit(pid: Pid, code: Option<int>, signal: Option<string>, now: Time): seq<LogRecord> -> seq<LogRecord> {
    buf => buf + [ExitRecord(pid, code, signal, now)]
  }

  /** The first two steps of the exit handler touch only the child's own
      buffer and the label's health checker. */
  lemma ExitPrelude(s: State, pid: Pid, code: Option<int>, signal: Option<string>, now: Time)
    requires pid in s.launches
    ensures var l := s.launches[pid].name;
            var s2 := StopHealthCheck(UpdateLogs(s, pid, AppendExit(pid, code, signal, now)), l);
            && s2 == s.(procs := s2.procs, checkers := s.checkers - {l},
                        intervals := if l in s.checkers then s.intervals - {s.checkers[l]} else s.intervals)
            && s2.procs.Keys == s.procs.Keys
            && (forall x | x in s.procs && x != l :: s2.procs[x] == s.procs[x])
            && (l in s.procs ==> s2.procs[l] == s.procs[l].(logs := s2.procs[l].logs))
            && (Owns(s, pid) ==> s2.procs[l].logs == s.procs[l].logs + [ExitRecord(pid, code, signal, now)])
  {
  }

  /** The child's `exit` event: push the exit record, clear the label's
      health checker, then either schedule a relaunch of the same launch or
      remove the label. Neither branch looks at whether the entry under the
      label is still the one for this child. */
  function OnExit(s: State, pid: Pid, code: Option<int>, signal: Option<string>, now: Time): (s': State)
    requires pid in s.live && s.live <= s.launches.Keys
    ensures var l := s.launches[pid].name;
            && pid !in s'.live
            && l !in s'.checkers
            && (Owns(s, pid) ==> l in s'.procs ==> s'.procs[l].logs == s.procs[l].logs + [ExitRecord(pid, code, signal, now)])
            && (RelaunchWanted(s, l, code, signal) ==>
                  && l in s'.procs
                  && s'.procs[l].autoRestart
                  && s'.procs[l].pid == s.procs[l].pid
                  && s'.timers == s.timers + multiset{Relaunch(s.launches[pid])}
                  && s'.procs.Keys == s.procs.Keys)
            && (!RelaunchWanted(s, l, code, signal) ==>
                  && s'.procs.Keys == s.procs.Keys - {l}
                  && s'.timers == s.timers)
            && (forall x | x in s.procs && x != l :: x in s'.procs && s'.procs[x] == s.procs[x])
    ensures s'.launches == s.launches && s'.live == s.live - {pid}
    ensures s'.aliases == s.aliases && s'.inflight == s.inflight && s'.crashed == s.crashed
    ensures var l := s.launches[pid].name;
            && s'.checkers == s.checkers - {l}
            && s'.intervals == (if l in s.checkers then s.intervals - {s.checkers[l]} else s.intervals)
            && s'.order == (if RelaunchWanted(s, l, code, signal) then s.order else Remove(s.order, l))
    ensures s' == s.(procs := s'.procs, order := s'.order, checkers := s'.checkers, intervals := s'.intervals,
                     timers := s'.timers, live := s'.live)
  {
    ExitPrelude(s, pid, code, signal, now);
    var l := s.launches[pid].name;
    var s1 := UpdateLogs(s, pid, AppendExit(pid, code, signal, now));
    var s2 := StopHealthCheck(s1, l);
    if RelaunchWanted(s2, l, code, signal) then
      s2.(timers := s2.timers + multiset{Relaunch(s.launches[pid])}, live := s2.live - {pid})
    else
      var s3 := DeleteEntry(s2, l);
      s3.(live := s3.live - {pid})
  }

  /** The relaunch replaces the label's entry with a fresh one for the
      same launch, moves the label to the end of the order, and leaves
      every other entry alone. */
  lemma RelaunchReplaces(s: State, launch: Launch, now: Time)
    requires launch.name in s.procs
    requires forall i | i in s.intervals :: i < s.nextInterval
    ensures var l := launch.name;
            var s' := StartProcess(DeleteEntry(s, l), launch, now).1;
            && s'.procs.Keys == s.procs.Keys
            && (forall k | k in s.procs && k != l :: s'.procs[k] == s.procs[k])
            && s'.order == Remove(s.order, l) + [l]
  {
  }

  /** The forced kill deletes the label, if present, from the registry and
      the order, and touches nothing else. */
  lemma ForceKillDeletes(s: State, l: Label)
    ensures var s' := if l in s.procs then DeleteEntry(s, l) else s;
            s' == s.(procs := s.procs - {l}, order := if l in s.procs then Remove(s.order, l) else s.order)
  {
  }

  /** A pending timer fires. The delayed `start` of `restart` runs in an
      `async` timer callback (server.mjs:809-816): when it throws, the
      rejected promise is never handled, and on Node.js 15 or later an
      unhandled rejection ends the server process. */
  function OnTimer(s: State, t: Timer, now: Time): (s': State)
    requires t in s.timers
    requires forall i | i in s.intervals :: i < s.nextInterval
    ensures t.Relaunch? && t.launch.name in s.procs ==>
              var l := t.launch.name;
              && l in s'.procs
              && s'.procs[l] == FreshEntry(t.launch, s.nextPid, now)
              && s'.procs[l].autoRestart == t.launch.autoRestart
              && s'.live == s.live + {s.nextPid}
              && s'.procs.Keys == s.procs.Keys
              && (forall k | k in s.procs && k != l :: s'.procs[k] == s.procs[k])
              && s'.order == Remove(s.order, l) + [l]
    ensures t.Relaunch? && t.launch.name !in s.procs ==> s' == s.(timers := s.timers - multiset{t})
    ensures t.ForceKill? ==> s'.procs == s.procs - {t.name} && s'.timers == s.timers - multiset{t}
    ensures t.ForceKill? ==>
              && s'.order == (if t.name in s.procs then Remove(s.order, t.name) else s.order)
              && s' == s.(procs := s'.procs, order := s'.order, timers := s'.timers)
    ensures t.FirstProbe? ==> s' == s.(timers := s.timers - multiset{t}, inflight := s.inflight + multiset{t.probe})
    ensures t.RestartSettle? ==>
              var s1 := s.(timers := s.timers - multiset{t});
              && (Start(s1, t.args, now).Success? ==> s' == Start(s1, t.args, now).value.1)
              && (Start(s1, t.args, now).Failure? ==> s' == s1.(crashed := true))
  {
    var s1 := s.(timers := s.timers - multiset{t});
    match t
    case Relaunch(launch) =>
      if launch.name in s1.procs then
        RelaunchReplaces(s1, launch, now);
        StartProcess(DeleteEntry(s1, launch.name), launch, now).1
      else s1
    case ForceKill(l, _) =>
      ForceKillDeletes(s1, l);
      if l in s1.procs then DeleteEntry(s1, l) else s1
    case FirstProbe(p) =>
      s1.(inflight := s1.inflight + multiset{p})
    case RestartSettle(args) =>
      match Start(s1, args, now)
      case Success((_, s2)) => s2
      case Failure(_) => s1.(crashed := true)
  }

  /** An interval fires: its probe is sent. */
  function OnTick(s: State, id: nat): (s': State)
    requires id in s.intervals
    ensures s' == s.(inflight := s.inflight + multiset{s.intervals[id]})
  {
    s.(inflight := s.inflight + multiset{s.intervals[id]})
  }

  /** A probe settles: whatever entry holds its label takes the result. */
  function OnProbeDone(s: State, p: Probe, result: ProbeResult, now: Time): (s': State)
    requires p in s.inflight
    ensures s'.inflight == s.inflight - multiset{p}
    ensures p.name in s.procs ==>
              var e := s.procs[p.name];
              var (h, logs) := ProbeUpdate(e.logs, result, now);
              s'.procs == s.procs[p.name := e.(health := h, logs := logs)]
    ensures p.name !in s.procs ==> s'.procs == s.procs
    ensures s' == s.(procs := s'.procs, inflight := s'.inflight)
  {
    var s1 := s.(inflight := s.inflight - multiset{p});
    if p.name in s1.procs then
      var e := s1.procs[p.name];
      var (h, logs) := ProbeUpdate(e.logs, result, now);
      s1.(procs := s1.procs[p.name := e.(health := h, logs := logs)])
    else s1
  }
}

=== FILE: uptime.dfy ===
/** `formatUptime` (server.mjs:947-957): the largest non-zero unit of an
    elapsed time in milliseconds, with the next unit down. The rendered
    words are presentation and are not modelled. */
module Uptime {

  const Second: int := 1000
  const Minute: int := 60 * Second
  const Hour: int := 60 * Minute
  const Day: int := 24 * Hour

  datatype Uptime =
    | Days(days: int, hours: int)
    | Hours(hours: int, minutes: int)
    | Minutes(minutes: int, seconds: int)
    | Seconds(seconds: int)

  /** `Math.floor` of a division by a positive constant; Dafny's `/` rounds
      down for positive divisors, so it is the same operation. */
  function FormatUptime(ms: int): (u: Uptime)
    ensures u.Days? ==>
              && u.days >= 1 && 0 <= u.hours < 24
              && (u.days * 24 + u.hours) * Hour <= ms < (u.days * 24 + u.hours + 1) * Hour
    ensures u.Hours? ==>
              && 1 <= u.hours < 24 && 0 <= u.minutes < 60
              && (u.hours * 60 + u.minutes) * Minute <= ms < (u.hours * 60 + u.minutes + 1) * Minute
    ensures u.Minutes? ==>
              && 1 <= u.minutes < 60 && 0 <= u.seconds < 60
              && (u.minutes * 60 + u.seconds) * Second <= ms < (u.minutes * 60 + u.seconds + 1) * Second
    ensures u.Seconds? ==> ms < Minute && u.seconds * Second <= ms < (u.seconds + 1) * Second
  {
    var seconds := ms / 1000;
    var minutes := seconds / 60;
    var hours := minutes / 60;
    var days := hours / 24;
    if days > 0 then Days(days, hours % 24)
    else if hours > 0 then Hours(hours, minutes % 60)
    else if minutes > 0 then Minutes(minutes, seconds % 60)
    else Seconds(seconds)
  }

  /** The four shapes split the time line: which one is used depends only on
      how many whole minutes, hours and days have elapsed. */
  lemma ShapeByElapsed(ms: int)
    ensures FormatUptime(ms).Days? <==> ms >= Day
    ensures FormatUptime(ms).Hours? <==> Hour <= ms < Day
    ensures FormatUptime(ms).Minutes? <==> Minute <= ms < Hour
    ensures FormatUptime(ms).Seconds? <==> ms < Minute
  {
  }
}

=== FILE: wrappers.dfy ===
/** Failure-compatible wrappers used for the supervisor's thrown errors. */
module Wrappers {

  datatype Option<+T> = None | Some(value: T) {

    predicate IsFailure() {
      None?
    }

    function PropagateFailure<U>(): Option<U>
      requires None?
    {
      None
    }

    function Extract(): T
      requires Some?
    {
      value
    }

    function GetOr(default: T): T {
      match this
      case Some(v) => v
      case None => default
    }
  }

  datatype Result<+R, +E> = Success(value: R) | Failure(error: E) {

    predicate IsFailure() {
      Failure?
    }

    function PropagateFailure<U>(): Result<U, E>
      requires Failure?
    {
      Failure(error)
    }

    function Extract(): R
      requires Success?
    {
      value
    }
  }
}
